=== FILE: README.md ===
# Fake-review detection: the decision and rule logic, modelled in Dafny

The system classifies product reviews as FAKE or REAL and acts on the
result. Around the classifier sit six pieces of deterministic logic, and
this project models each of them as immutable Dafny datatypes and pure
functions, with contracts and lemmas stating what each promises:

- **Moderation** (`ActionHandler`, from `action_handler.py`)
  - A threshold policy maps a prediction and its confidence to REMOVE,
    FLAG_FOR_REVIEW, MONITOR, PUBLISH, MANUAL_REVIEW, or no decision.
  - An in-memory flagged-review list and blocked-user set.
  - The day's JSON action log, rewritten in full on every call, with
    every write error swallowed.
  - Statistics read back from that log.
- **Prediction monitoring** (`Monitoring`, from `monitoring.py`)
  - An append-only list of observations and aggregate statistics over it.
  - A drift check on the share of FAKE predictions, guarded by a minimum
    of 100 observations.
- **Continuous learning** (`ContinuousLearning`, from `continuous_learning.py`)
  - Feedback records whose `correct` flag is derived from the two labels.
  - The monthly feedback CSV.
  - The retraining rule: minimum sample count, then an accuracy threshold.
  - The retraining sequence. It calls an external preprocessor and
    trainer, and archives the feedback file only after every training
    step has finished.
  - Error-pattern counts and learning statistics.
- **Input validation and rate limiting** (`Validation`, from `validation.py`)
  - An ordered chain of checks on one review text and on a batch.
  - The per-client request counter behind the `rate_limit` decorator.
- **Synthetic labelling** (`LabelGenerator`, from `label_generator.py`)
  - Six 0/1 fake indicators.
  - Their sum as a fake score, and the label "fake" at a score of 3 or more.
- **Behavioural features** (`BehavioralFeatures`, from `behavioral_features.py`)
  - Review frequency per user.
  - Deviation from the product's mean rating.
  - Burst detection on the frame sorted by (user, timestamp).
  - Account age and the new-account flag.
  - The verified-purchase flag.

Two shared modules hold vocabulary that is defined once.

- `Common`
  - `Option`, absolute value, and `Count`, `Filter`, `MapSeq`, `Sum`,
    `Mean` and `Fraction` over sequences.
  - Lemmas on how counts split, bound each other, survive re-ordering,
    and relate to filtering.
- `Text`
  - Python string order (`LexLe`) and substring search (`IsSubstring`,
    proved equivalent to an explicit occurrence).
  - `str.lower`, `str.isupper`, `str.split()` on Python's whitespace set,
    and `str.replace`, which replaces every occurrence.

**What is a parameter.** The wall clock, the calendar date in file names,
TextBlob sentiment, and the outcome of every file write and every external
call are parameters. Confidences, ratings and sentiments are exact `real`s.
Files are modelled as follows.

- The action log is `Missing`, `Unreadable` or `Present(entries)`.
  - A rewrite ends `Written`, `OpenFailed`, or `DumpFailed`.
  - `DumpFailed` means the file was truncated and left as a partial JSON
    document.
- The feedback CSVs are a map from path to rows.
- The model and preprocessor artifacts are write counters.

**Where the code and its documentation disagree, the model follows the code.**

- A MONITOR decision only prints. No watch list is kept.
- The `blocked_users` statistic is the size of the in-memory set, not a
  count of the log's BLOCK_USER records.
- `retrain_model` has no rollback. If the preprocessor dump raises, the
  freshly saved models stay written. A failure in an earlier step leaves
  the disk as it was.
- Every prediction other than the string `FAKE` takes the REAL branch of
  the policy.
- `_save_feedback` writes the file's existing rows followed by the whole
  in-memory list. Records collected earlier by the same process are
  therefore written again on every save, and the model keeps that
  behaviour.
- The comment in `generate_labels` says two indicators make a review fake.
  The code uses a score of at least 3, and so does the model.

## Model

| member | source | states |
|---|---|---|
| ActionHandler.Init | action_handler.py:8-12 | A new handler has no blocked users and no flagged reviews, and sees the day's log file as it already is. |
| ActionHandler.Policy | action_handler.py:25-48 | For FAKE: REMOVE iff confidence ≥ 0.9, FLAG_FOR_REVIEW iff 0.7 ≤ c < 0.9, MONITOR iff 0.5 ≤ c < 0.7, no decision iff c < 0.5. For any other label: PUBLISH iff c ≥ 0.8, otherwise MANUAL_REVIEW. |
| ActionHandler.PolicyIsFirstMatch | action_handler.py:25-48 | The nested if/elif cascade decides exactly like a five-row threshold table read top-down with first match winning. |
| ActionHandler.FakeSeverityMonotone | action_handler.py:25-39 | Raising the confidence of a FAKE prediction never gives a milder outcome (none < MONITOR < FLAG < REMOVE). |
| ActionHandler.LogAction | action_handler.py:85-99 | A successful rewrite appends the entry at the end of the existing list, or creates a one-entry list. A failed open changes nothing. An unreadable file stays unreadable. A failed dump leaves an unreadable file. |
| ActionHandler.LogAllAppends | action_handler.py:85-99 | Logging a run of entries to a readable file keeps every earlier entry and adds the new ones at the end in call order. |
| ActionHandler.LogRoundTrip | action_handler.py:85-99 | Writing N ≥ 1 entries to a fresh day's log and reading it back gives exactly those entries in order. |
| ActionHandler.DecideAction | action_handler.py:14-51 | The recorded decision is the one the threshold policy chooses, so its REMOVE/FLAG/MONITOR/PUBLISH/MANUAL_REVIEW bands carry over to the log record. The record copies the inputs and gets the decision's fixed reason iff it gets a decision. FAKE below 0.5 has neither, yet is still logged. Other labels always get a decision. The flagged list grows by exactly the review id iff the decision is FLAG_FOR_REVIEW. The blocked set never changes. |
| ActionHandler.BlockUser | action_handler.py:72-83 | The user is in the set afterwards and no other membership changes. The flagged list is untouched. One BLOCK_USER record is logged. |
| ActionHandler.TalliesBounded | action_handler.py:112-115 | removed + flagged + published ≤ total, since an entry has at most one decision. |
| ActionHandler.GetStatistics | action_handler.py:105-120 | None iff the log is missing or unreadable. Otherwise total = log length; removed, flagged and published are the numbers of log entries whose decision is REMOVE, FLAG_FOR_REVIEW and PUBLISH (block records have no decision), their sum is ≤ total, and the blocked count is the size of the in-memory set. |
| ActionHandler.BlockEntryCountsOnlyInTotal | action_handler.py:111-117 | A BLOCK_USER record adds one to the total and nothing to any decision tally. |
| ActionHandler.BlockTwice | action_handler.py:72-83 | Blocking a user twice, on a day whose log exists or not yet, leaves the set as after one block. The blocked statistic counts distinct users, while the log gains two records. |
| ActionHandler.ReplayFlagged | action_handler.py:58-61 | After any run of decisions, the flagged list is the old list followed by exactly the FLAG_FOR_REVIEW review ids in order, whatever the log writes did. The blocked set is unchanged. |
| ActionHandler.FlaggedIdsMembers | action_handler.py:25-31 | A review id is among the run's FLAG_FOR_REVIEW ids iff some event of the run predicted it FAKE with confidence in [0.7, 0.9). |
| ActionHandler.FlaggedReviewsAfterRun | action_handler.py:101-103 | What `get_flagged_reviews` returns after a run of decisions on a fresh handler is the run's FLAG_FOR_REVIEW ids in decision order, and lists an id iff some FAKE prediction with confidence in [0.7, 0.9) was made for it. |
| Monitoring.Init | monitoring.py:8-11 | A new monitor has no observations. |
| Monitoring.Track | monitoring.py:13-18 | Exactly one observation is appended, and earlier observations are unchanged. |
| Monitoring.MinConfidence | monitoring.py:30 | The minimum is one of the confidences and is at most every confidence. |
| Monitoring.MaxConfidence | monitoring.py:31 | The maximum is one of the confidences and is at least every confidence. |
| Monitoring.GetStatistics | monitoring.py:20-34 | None iff there are no observations. Otherwise the statistics are those `Monitoring.Statistics` states of the observations. |
| Monitoring.Statistics | monitoring.py:24-34 | total is the number of observations; fake and real are the numbers labelled FAKE and REAL (together ≤ total, equal to it when every label is one of the two); the average is the mean of the confidences; min and max are attained confidences that bound every other, with min ≤ mean ≤ max; the low-confidence count is the number of confidences below 0.7. |
| Monitoring.CountPartitionWhenLabelled | monitoring.py:27-28 | When every label is FAKE or REAL, the two counts add up to the total. |
| Monitoring.TrackUpdatesStatistics | monitoring.py:13-34 | Tracking one prediction moves the total, the label counts, the low-confidence count, the minimum and the maximum by exactly that observation's contribution. |
| Monitoring.CheckDrift | monitoring.py:44-55 | Below 100 observations the result is always (false, insufficient data). From 100 on, drift is reported iff the deviation of the FAKE share from the expected share strictly exceeds the threshold, and the message carries that deviation. |
| Monitoring.DriftAtThirtyPercent | monitoring.py:44-55 | 30 FAKE in 100 with the default baseline (0.15 ± 0.1) is drift of 0.15. |
| Monitoring.DriftBoundaryIsNoDrift | monitoring.py:53-55 | A deviation exactly equal to the threshold is not drift, whether the FAKE share is above or below the expected share. |
| ContinuousLearning.Init | continuous_learning.py:9-13 | A new learner has no in-memory feedback. |
| ContinuousLearning.SaveFeedback | continuous_learning.py:31-39 | The feedback file becomes its old rows followed by the whole in-memory list. Other files and the artifacts are untouched. |
| ContinuousLearning.CollectFeedback | continuous_learning.py:15-29 | The record is correct iff the labels agree and carries the inputs. The in-memory list grows by exactly that record, and the file is then saved. |
| ContinuousLearning.CollectTwiceRepeatsFirst | continuous_learning.py:26-39 | Starting without a file, two collections leave three rows, with the first record twice. |
| ContinuousLearning.Accuracy | continuous_learning.py:51 | The mean of `correct` is absent (NaN) iff there are no rows, and otherwise lies in [0, 1]. |
| ContinuousLearning.CheckRetrainingNeeded | continuous_learning.py:41-56 | No file gives false. Fewer rows than the minimum give false with the row count. Otherwise the result is true iff the accuracy is strictly below the threshold, and the message carries that accuracy: "dropped" when true, "performing well" when false. |
| ContinuousLearning.RetrainingScenarios | continuous_learning.py:41-56 | 50 rows never trigger. With 150 rows, accuracy 0.80 triggers and 0.90 does not (defaults 0.85 and 100). |
| ContinuousLearning.TrainingLabel | continuous_learning.py:64 | FAKE maps to 1, REAL to 0, and anything else to NaN. |
| ContinuousLearning.RetrainModel | continuous_learning.py:58-83 | The run succeeds iff the file exists and no collaborator raises. The trainer is reached iff the file exists and data preparation finished, and is then given one target per row, the row's actual label mapped by `TrainingLabel`. The file is archived only after training, model save and preprocessor dump have all finished. A failure raises the failing step's error and leaves every feedback file in place. Before the model save, a failure leaves the whole disk as it was. There is no rollback: a failure in the preprocessor dump leaves the saved models written, and a failure in the rename leaves both artifacts written. On success the feedback file is renamed to its archive name with its rows, every other file is kept, and each artifact is written once. |
| ContinuousLearning.RetryAfterFailure | continuous_learning.py:58-83 | After a failed attempt the feedback file is still there, and a retry without failures retrains on all its rows. |
| ContinuousLearning.DefaultArchiveName | continuous_learning.py:80 | For a path without other dots, `.csv` becomes `_archived_<date>.csv`. |
| ContinuousLearning.CollectAfterArchive | continuous_learning.py:31-39 | After a successful retrain, the next collection starts a new file holding the whole in-memory list plus the new record. |
| ContinuousLearning.DetectNewPatterns | continuous_learning.py:85-106 | Empty iff there is no file or no misclassification. Otherwise it gives the counts of misclassified rows that are FAKE-predicted, REAL-predicted and above 0.8 confidence. false positives + false negatives ≤ errors, and high-confidence errors ≤ errors. |
| ContinuousLearning.MaxString | continuous_learning.py:121 | The latest timestamp is one of the timestamps and is greatest in Python string order. |
| ContinuousLearning.GetLearningStats | continuous_learning.py:108-124 | None iff there is no file. total is the row count; accuracy is the mean of `correct`, in [0, 1]; avg_confidence is the mean of the confidence column (absent for no rows); false positives and false negatives are the numbers of FAKE-predicted REAL rows and REAL-predicted FAKE rows, together ≤ total. last_updated is absent iff the file is empty, and otherwise is one of the rows' timestamps and at least every other in Python string order. |
| Validation.ValidateReviewText | validation.py:7-23 | A non-string or empty text, a text shorter than 5 or longer than 5000, and a dangerous pattern in the lower-cased text each give their own message. (true, "Valid") holds iff 5 ≤ length ≤ 5000 and no pattern is present. |
| Validation.ValidateIsFirstFailure | validation.py:9-23 | The result is the message of the first check that fails in a four-check chain, and is valid iff every check passes. |
| Validation.ScriptTagInCapitalsRejected | validation.py:19-21 | A text of acceptable length containing `<SCRIPT` in capitals is rejected as dangerous. |
| Validation.DangerousRejected | validation.py:19-21 | Any text of acceptable length with a dangerous pattern is rejected with the dangerous-input message. |
| Validation.ValidateBatch | validation.py:25-42 | A non-list, an empty list and more than 100 items each give their own message. Otherwise the batch is valid iff every review validates. If not, the message is the prefix followed by the first invalid review's message. |
| Validation.NewLimiter | validation.py:44-46 | The limiter keeps the decorator's `max_requests` as its limit, and every client starts at a count of 0. |
| Validation.Request | validation.py:51-58 | A request is admitted iff the client's count is below the limit. Admission adds exactly one to that client's count, rejection changes nothing, and other clients are untouched. |
| Validation.RequestKeepsWithinLimit | validation.py:54-57 | One request never takes a count above the limit. |
| Validation.ServeCount | validation.py:44-58 | Over any run of requests a client's count never decreases, and equals min(limit, start + requests made) when it starts below the limit. |
| Validation.ServeWithinLimit | validation.py:44-58 | No run of requests takes any count above the limit. |
| LabelGenerator.DuplicateIffAnotherRow | label_generator.py:11 | A text occurs at least twice iff another row carries the same text. |
| LabelGenerator.DuplicateFlag | label_generator.py:11 | A row is marked a duplicate iff another row has the same text, so every copy is marked. |
| LabelGenerator.DuplicateFlags | label_generator.py:9-12 | One 0/1 flag per row, set iff another row has the same text. |
| LabelGenerator.MismatchNeedsExtremes | label_generator.py:20-22 | A rating strictly between 2 and 4, or a sentiment within [−0.2, 0.2], is never a mismatch. A mismatch pairs a high rating with negative sentiment or a low rating with positive sentiment. |
| LabelGenerator.SuspiciousShortCases | label_generator.py:31-35 | For ratings other than 1 and 5 only more than 200 words is suspicious. More than 200 words always is, and 5 to 200 words never is. |
| LabelGenerator.ShoutedPhraseIsGeneric | label_generator.py:38-42 | The phrase check ignores case, so "PERFECT" counts as generic. |
| LabelGenerator.DistinctWordsAtMost | label_generator.py:46 | There are never more distinct words than words. |
| LabelGenerator.RepetitiveRepeatsAWord | label_generator.py:45-47 | A text flagged repetitive repeats some word, ignoring case. |
| LabelGenerator.EmptyTextIndicators | label_generator.py:45-55 | An empty text is neither repetitive nor excessively capitalised. |
| LabelGenerator.AllCapitalsIsExcessive | label_generator.py:53-55 | A non-empty text entirely in capital letters is excessively capitalised. |
| LabelGenerator.FakeScore | label_generator.py:73-75 | The score of six 0/1 indicators lies in [0, 6]. |
| LabelGenerator.Label | label_generator.py:78 | The label is 0/1, and 1 iff the score is at least 3. |
| LabelGenerator.LabelMonotone | label_generator.py:73-78 | Turning indicators on never lowers the score and never turns a fake label back to real. |
| LabelGenerator.GenerateLabels | label_generator.py:67-78 | One output row per input row, in order. Each indicator is 1 iff its rule holds for that row, where duplicates are judged against the whole frame. The score is the sum of the row's six indicators, in [0, 6], and the label is the one `Label` gives those indicators: 1 iff the score is at least 3. |
| LabelGenerator.DistributionCoversRows | label_generator.py:80-81 | The real count, computed as rows minus fakes, equals the number of rows labelled 0, so fake + real = rows. |
| BehavioralFeatures.UserFrequency | behavioral_features.py:13 | The frequency is the number of rows by the same user, between 1 and the frame size. |
| BehavioralFeatures.ExtractReviewFrequency | behavioral_features.py:10-16 | Only the frequency column changes. It is the per-user row count, equal across a user's rows, and 1 everywhere without a user column. |
| BehavioralFeatures.FrequencyOneIffSingleReview | behavioral_features.py:12-13 | The frequency is 1 iff no other row has the same user. |
| BehavioralFeatures.GroupRatingSum | behavioral_features.py:21 | Summing the ratings of a product's group gives the product's row-by-row rating total. |
| BehavioralFeatures.GroupMean | behavioral_features.py:21 | The mean of a product's group of ratings is the product's row-by-row total rating divided by its row count, which is never 0 for a product that occurs. |
| BehavioralFeatures.ProductMean | behavioral_features.py:21 | The product of row i has at least one row, and the mean broadcast back to row i by `transform('mean')` is that product's total rating divided by its row count. |
| BehavioralFeatures.ProductMeanWithin | behavioral_features.py:21 | The product mean lies within any bounds of that product's ratings. |
| BehavioralFeatures.Deviation | behavioral_features.py:20-24 | With the rating and product columns the deviation is the distance of the row's rating from its product's mean rating; it is never negative, and is 0 without those columns. |
| BehavioralFeatures.ExtractRatingDeviation | behavioral_features.py:18-25 | Only the deviation column changes. With both columns each row's value is the distance of its rating from its product's mean rating, and it is ≥ 0 everywhere; when a column is missing it is 0. |
| BehavioralFeatures.DeviationWithinSpread | behavioral_features.py:20-22 | When a product's ratings lie in [lo, hi], each of its deviations is at most hi − lo, so a uniformly rated product has deviation 0. |
| BehavioralFeatures.KeyTotal | behavioral_features.py:31 | Any two rows are comparable by (user, timestamp with NaT last). |
| BehavioralFeatures.KeyTransitive | behavioral_features.py:31 | The (user, timestamp) order is transitive. |
| BehavioralFeatures.SortByUserTime | behavioral_features.py:31 | The result is a permutation of the frame, sorted by user and then by timestamp, with NaT last. |
| BehavioralFeatures.PreviousByUser | behavioral_features.py:32 | The group-wise predecessor is the closest earlier row by the same user, or none when the user has no earlier row. |
| BehavioralFeatures.MarkBursts | behavioral_features.py:32-33 | Only the two burst columns change. The time difference recorded on each row is its group-wise difference (from the closest earlier row by the same user), and a row is a burst iff that difference exists and is below 3600 s. |
| BehavioralFeatures.SortedGroupDiff | behavioral_features.py:31-33 | In a sorted frame the group-wise difference is the difference with the row above when it is by the same user and both timestamps parse. It is never negative. |
| BehavioralFeatures.MarkSortedFrame | behavioral_features.py:31-33 | On a frame sorted by (user, timestamp), each row's recorded time difference is the difference with the row just above when that row is by the same user and both timestamps parse, and the row is a burst iff that difference is between 0 and 3599 s. |
| BehavioralFeatures.DetectBurstActivity | behavioral_features.py:27-36 | With both columns the frame comes back sorted, as a permutation of its rows with only the burst columns changed. Each row's time difference is the difference with the row above when that row is by the same user and both timestamps parse, and is missing otherwise. A row is a burst iff the row above is by the same user and 0 to 3599 s earlier. Without the columns, order is kept and nothing is a burst. |
| BehavioralFeatures.AgeInDays | behavioral_features.py:42 | The age is the whole number of days rounded down: age × 86400 ≤ now − created < (age + 1) × 86400. |
| BehavioralFeatures.ExtractAccountAge | behavioral_features.py:38-47 | Only the two age columns change. Without the column the age is 365 and no account is new. Otherwise the age is absent iff the creation time is unparseable, is the whole number of days since creation (`AgeInDays`) when it parses, and an account is new iff its age is below 30. |
| BehavioralFeatures.NewAccountIffRecent | behavioral_features.py:40-46 | An account with a parseable creation time is new iff it was created less than 30 × 86400 s before now. |
| BehavioralFeatures.ExtractVerifiedPurchase | behavioral_features.py:49-55 | Only the verified column changes, and it is 1 iff the column exists and the purchase is verified. |
| BehavioralFeatures.ExtractAll | behavioral_features.py:57-64 | One row per review. Without the burst columns, reviews keep their input order. With them, the frame is sorted by (user, timestamp). |
| BehavioralFeatures.ExtractAllKeepsReviews | behavioral_features.py:57-64 | The extractor only adds columns: the reviews come out as a re-arrangement of the input. |
| BehavioralFeatures.BurstRowHasTwin | behavioral_features.py:29-33 | A row marked as a burst is an input row whose user has at least two rows. |
| BehavioralFeatures.BurstNeedsRepeatReviewer | behavioral_features.py:57-64 | Across the steps, a review marked as a burst has a review frequency of at least 2. |

## Left out

- The Flask and Streamlit front ends, model loading, the NLTK/TF-IDF
  preprocessing, the classifiers and their evaluation are not part of this
  model. They are library wrappers and transport.
- `ModelMonitor.save_metrics`, the logger and the configuration file are
  not part of this model. They are file output and environment reading.
- The print-only helpers `_remove_review`, `_monitor_user` and
  `_publish_review` have no effect on state and are not modelled.
- Clocks and calendar dates are parameters (`now`, `date`, `month`), and
  TextBlob sentiment is an input value.
- The random sampling at the start of `generate_labels` is not modelled.
  `LabelGenerator.GenerateLabels` starts from the sampled frame.
- Messages that embed a formatted percentage carry the number, not its
  text (`DriftDetected`, `AccuracyDropped`, `PerformingWell`,
  `InsufficientSamples`).
- Floating point is not modelled: confidences, ratings and means are
  exact reals.
- Text.Lower: only ASCII capitals and the KELVIN SIGN (which lowers to
  `k`) are lowered. For the dangerous patterns and the generic phrases this
  loses nothing. The one other mapping that yields an ASCII letter is
  LATIN CAPITAL LETTER I WITH DOT ABOVE, which Python lowers to `i`
  followed by a combining dot above. Every `i` in the patterns and phrases
  is followed by another ASCII character, so no match can run through that
  combining mark. The model leaves the letter unchanged, so it matches
  nothing either. `str.isupper` is modelled for ASCII letters only.
- LabelGenerator.Repetitive: words that differ only in the case of
  non-ASCII letters count as distinct, whereas Python's `str.lower` makes
  them equal. "Été été Été été" is repetitive in the code and not in the
  model. Python's full Unicode case mapping is not modelled.
- Monitoring.GetStatistics: NaN confidences, which pandas would skip in
  the mean, minimum and maximum, are not modelled.
- LabelGenerator.GenerateLabels: a missing (NaN) review text or rating read from the CSV
  is not modelled; every text is a string and every rating a number. In
  the code, all NaN texts are duplicates of each other (but not of a
  literal "nan" text), the other text indicators see the string "nan", and
  a NaN rating makes every rating comparison false.
- BehavioralFeatures.ExtractRatingDeviation: missing ratings, which pandas skips when
  averaging, are not modelled. Every rating is a number.
- BehavioralFeatures.ExtractRatingDeviation: a missing product id is not modelled.
  Pandas drops that key from the grouping, so the row's product mean and
  deviation become NaN, while the model treats the id as an ordinary string
  and gives a number.
- BehavioralFeatures.ExtractReviewFrequency: missing user ids, which pandas drops from the
  grouping (those rows would get NaN), are not modelled.
- BehavioralFeatures.DetectBurstActivity: timestamps are whole seconds. Pandas reports
  fractional seconds, which makes no difference against a 3600-second
  window for whole-second data.
- BehavioralFeatures.DetectBurstActivity: a missing user id is not modelled. Pandas sorts
  such a row last and its group-wise difference is NaN, so it is never a
  burst. User ids are always strings and ordered by `LexLe`; a user id
  column read as numbers, which pandas sorts numerically, is not modelled.
- BehavioralFeatures.SortByUserTime: the contract states sortedness and permutation but not
  stability. Stability holds by construction, since a row is inserted
  ahead of rows with an equal key.
- BehavioralFeatures.ExtractVerifiedPurchase: the column is boolean. A NaN there, which
  makes `astype(int)` raise, is not modelled.
- ContinuousLearning.RetrainModel: the trained models that the call returns are not
  modelled, and neither is a `save_models` that fails after writing some
  models. Saving counts as a single write. The artifacts are write counters,
  so a preprocessor dump that raises while pickling is modelled as leaving
  the previous preprocessor file in place. In the code, `joblib.dump` has
  already opened the file for writing, so a truncated preprocessor file is
  left next to the freshly saved models.
- Concurrency and background retraining do not appear in the code and are
  not modelled.

=== FILE: action_handler.dfy ===
/** The moderation policy of `ReviewActionHandler`: a first-match threshold
    table from (prediction, confidence) to a decision, the in-memory
    flagged-review list and blocked-user set, the day's append-only JSON
    action log, and the statistics read back from that log. */
module ActionHandler {
  import opened Common

  datatype Decision = Remove | FlagForReview | Monitor | Publish | ManualReview

  /** The fixed reason text the handler records with each decision. */
  function ReasonFor(d: Decision): string
  {
    match d
    case Remove => "High confidence fake review"
    case FlagForReview => "Likely fake, needs manual review"
    case Monitor => "Suspicious, monitor user activity"
    case Publish => "Genuine review"
    case ManualReview => "Uncertain, needs human verification"
  }

  /** One element of the JSON action log. A decision record has no
      `decision`/`reason` keys when the policy chose nothing; a block
      record carries `action: BLOCK_USER` and no `decision` key. */
  datatype LogEntry =
    | DecisionEntry(reviewId: string, timestamp: string, prediction: string, confidence: real,
                    userId: Option<string>, decision: Option<Decision>, reason: Option<string>)
    | BlockEntry(blockedUser: string, blockReason: string, blockedAt: string)

  /** The day's log file as the handler finds it: absent, not a readable
      JSON list, or a list of entries. */
  datatype LogFile = Missing | Unreadable | Present(entries: seq<LogEntry>)

  /** How the rewrite of the log file ends: it succeeds, the file cannot be
      opened for writing (nothing changes), or serialisation fails after the
      file was truncated (a partial JSON document is left behind). */
  datatype WriteOutcome = Written | OpenFailed | DumpFailed

  datatype Handler = Handler(blockedUsers: set<string>, flaggedReviews: seq<string>, log: LogFile)

  /** A fresh handler; the day's log may already exist from an earlier run. */
  function Init(existing: LogFile): (h: Handler)
    ensures h.blockedUsers == {} && h.flaggedReviews == [] && h.log == existing
  {
    Handler({}, [], existing)
  }

  // ---------------------------------------------------------------------
  // The policy
  // ---------------------------------------------------------------------

  /** The nested threshold test of `decide_action`: FAKE predictions by
      confidence band (nothing below 0.5), anything else PUBLISH or
      MANUAL_REVIEW. Every lower bound is inclusive. */
  function Policy(prediction: string, confidence: real): (d: Option<Decision>)
    ensures prediction == "FAKE" ==> (d == Some(Remove) <==> confidence >= 0.9)
    ensures prediction == "FAKE" ==> (d == Some(FlagForReview) <==> 0.7 <= confidence < 0.9)
    ensures prediction == "FAKE" ==> (d == Some(Monitor) <==> 0.5 <= confidence < 0.7)
    ensures prediction == "FAKE" ==> (d == None <==> confidence < 0.5)
    ensures prediction != "FAKE" ==> (d == Some(Publish) <==> confidence >= 0.8)
    ensures prediction != "FAKE" ==> (d == Some(ManualReview) <==> confidence < 0.8)
  {
    if prediction == "FAKE" then
      if confidence >= 0.9 then Some(Remove)
      else if confidence >= 0.7 then Some(FlagForReview)
      else if confidence >= 0.5 then Some(Monitor)
      else None
    else
      if confidence >= 0.8 then Some(Publish)
      else Some(ManualReview)
  }

  /** A row of the policy read as a data table: applies to FAKE or to every
      other label, from an inclusive confidence bound (or unconditionally). */
  datatype Rule = Rule(forFake: bool, atLeast: Option<real>, decision: Decision)

  const PolicyTable: seq<Rule> := [
    Rule(true, Some(0.9), Remove),
    Rule(true, Some(0.7), FlagForReview),
    Rule(true, Some(0.5), Monitor),
    Rule(false, Some(0.8), Publish),
    Rule(false, None, ManualReview)
  ]

  predicate Matches(rule: Rule, prediction: string, confidence: real)
  {
    rule.forFake == (prediction == "FAKE")
    && (rule.atLeast.None? || confidence >= rule.atLeast.value)
  }

  /** Top-down, first match wins; no matching row means no decision. */
  function FirstMatch(table: seq<Rule>, prediction: string, confidence: real): Option<Decision>
  {
    if |table| == 0 then None
    else if Matches(table[0], prediction, confidence) then Some(table[0].decision)
    else FirstMatch(table[1..], prediction, confidence)
  }

  /** The coded cascade and the first-match table decide alike on every input. */
  lemma PolicyIsFirstMatch(prediction: string, confidence: real)
    ensures Policy(prediction, confidence) == FirstMatch(PolicyTable, prediction, confidence)
  {
    var p, c := prediction, confidence;
    var t0 := PolicyTable;
    var t1, t2, t3, t4 := t0[1..], t0[2..], t0[3..], t0[4..];
    assert t1[1..] == t2 && t2[1..] == t3 && t3[1..] == t4 && t4[1..] == [];
    assert t0[0] == Rule(true, Some(0.9), Remove) && t1[0] == Rule(true, Some(0.7), FlagForReview);
    assert t2[0] == Rule(true, Some(0.5), Monitor) && t3[0] == Rule(false, Some(0.8), Publish);
    assert t4 == [Rule(false, None, ManualReview)];
    assert FirstMatch(t4, p, c) == if p != "FAKE" then Some(ManualReview) else FirstMatch([], p, c);
    assert FirstMatch(t3, p, c) == if p != "FAKE" && c >= 0.8 then Some(Publish) else FirstMatch(t4, p, c);
    assert FirstMatch(t2, p, c) == if p == "FAKE" && c >= 0.5 then Some(Monitor) else FirstMatch(t3, p, c);
    assert FirstMatch(t1, p, c) == if p == "FAKE" && c >= 0.7 then Some(FlagForReview) else FirstMatch(t2, p, c);
    assert FirstMatch(t0, p, c) == if p == "FAKE" && c >= 0.9 then Some(Remove) else FirstMatch(t1, p, c);
  }

  /** Severity of an outcome for a FAKE prediction. */
  function Severity(d: Option<Decision>): nat
  {
    match d
    case None => 0
    case Some(Monitor) => 1
    case Some(FlagForReview) => 2
    case Some(Remove) => 3
    case Some(_) => 0
  }

  /** Raising the confidence of a FAKE prediction never softens the decision. */
  lemma FakeSeverityMonotone(c1: real, c2: real)
    requires c1 <= c2
    ensures Severity(Policy("FAKE", c1)) <= Severity(Policy("FAKE", c2))
  {
  }

  // ---------------------------------------------------------------------
  // The action log
  // ---------------------------------------------------------------------

  /** `_log_action`: read the list, append, rewrite; every exception is
      swallowed. An unreadable file makes the read fail before anything is
      written. */
  function LogAction(file: LogFile, entry: LogEntry, write: WriteOutcome): (f: LogFile)
    ensures file.Present? && write == Written ==> f == Present(file.entries + [entry])
    ensures file.Missing? && write == Written ==> f == Present([entry])
    ensures write == OpenFailed ==> f == file
    ensures file.Unreadable? ==> f == file
    ensures write == DumpFailed ==> f.Unreadable?
  {
    match file
    case Unreadable => Unreadable
    case Missing =>
      (match write
       case Written => Present([entry])
       case OpenFailed => Missing
       case DumpFailed => Unreadable)
    case Present(es) =>
      (match write
       case Written => Present(es + [entry])
       case OpenFailed => file
       case DumpFailed => Unreadable)
  }

  /** The entries a reader of the file sees (an absent file reads as none). */
  function Entries(file: LogFile): seq<LogEntry>
  {
    if file.Present? then file.entries else []
  }

  /** Appending entries one call at a time, every write succeeding. */
  function LogAll(file: LogFile, entries: seq<LogEntry>): LogFile
    decreases |entries|
  {
    if |entries| == 0 then file
    else LogAll(LogAction(file, entries[0], Written), entries[1..])
  }

  /** Logging to a readable file keeps every earlier entry in place and adds
      the new ones at the end, in call order. */
  lemma {:induction false} LogAllAppends(file: LogFile, entries: seq<LogEntry>)
    requires !file.Unreadable?
    requires file.Missing? ==> |entries| > 0
    ensures LogAll(file, entries) == Present(Entries(file) + entries)
    decreases |entries|
  {
    if |entries| == 0 {
      assert Entries(file) + entries == file.entries;
    } else {
      var next := LogAction(file, entries[0], Written);
      assert Entries(next) == Entries(file) + [entries[0]];
      LogAllAppends(next, entries[1..]);
      assert Entries(file) + [entries[0]] + entries[1..] == Entries(file) + entries;
    }
  }

  /** Writing N entries to a fresh day's log and reading it back yields
      exactly those N entries in insertion order. */
  lemma LogRoundTrip(entries: seq<LogEntry>)
    requires |entries| > 0
    ensures LogAll(Missing, entries).Present?
    ensures LogAll(Missing, entries).entries == entries
  {
    LogAllAppends(Missing, entries);
  }

  // ---------------------------------------------------------------------
  // Operations
  // ---------------------------------------------------------------------

  datatype Decided = Decided(handler: Handler, entry: LogEntry)

  /** `decide_action`: build the record, apply the policy and its in-memory
      effect (only FLAG_FOR_REVIEW changes state), then log the record.
      `now` is the ISO timestamp the clock would give. */
  function DecideAction(h: Handler, reviewId: string, prediction: string, confidence: real,
                        userId: Option<string>, now: string, write: WriteOutcome): (r: Decided)
    ensures r.entry.DecisionEntry?
    ensures r.entry.reviewId == reviewId && r.entry.prediction == prediction
    // the recorded decision is the one the threshold policy chooses
    ensures r.entry.decision == Policy(prediction, confidence)
    ensures r.entry.confidence == confidence && r.entry.userId == userId && r.entry.timestamp == now
    ensures prediction == "FAKE" && confidence < 0.5 ==> r.entry.decision.None? && r.entry.reason.None?
    ensures prediction != "FAKE" ==> r.entry.decision.Some?
    ensures r.entry.decision.Some? <==> r.entry.reason.Some?
    ensures r.entry.decision.Some? ==> r.entry.reason.value == ReasonFor(r.entry.decision.value)
    ensures r.handler.flaggedReviews ==
              if r.entry.decision == Some(FlagForReview) then h.flaggedReviews + [reviewId]
              else h.flaggedReviews
    ensures r.entry.decision == Some(FlagForReview) <==> prediction == "FAKE" && 0.7 <= confidence < 0.9
    ensures r.handler.blockedUsers == h.blockedUsers
    ensures r.handler.log == LogAction(h.log, r.entry, write)
  {
    var d := Policy(prediction, confidence);
    var reason := if d.Some? then Some(ReasonFor(d.value)) else None;
    var entry := DecisionEntry(reviewId, now, prediction, confidence, userId, d, reason);
    var flagged := if d == Some(FlagForReview) then h.flaggedReviews + [reviewId] else h.flaggedReviews;
    Decided(Handler(h.blockedUsers, flagged, LogAction(h.log, entry, write)), entry)
  }

  /** `block_user`: add to the set (a no-op if already there) and log a
      BLOCK_USER record. */
  function BlockUser(h: Handler, userId: string, reason: string, now: string, write: WriteOutcome): (h': Handler)
    ensures userId in h'.blockedUsers
    ensures h'.blockedUsers - {userId} == h.blockedUsers - {userId}
    ensures h'.flaggedReviews == h.flaggedReviews
    ensures h'.log == LogAction(h.log, BlockEntry(userId, reason, now), write)
  {
    Handler(h.blockedUsers + {userId}, h.flaggedReviews, LogAction(h.log, BlockEntry(userId, reason, now), write))
  }

  /** `get_flagged_reviews`: the moderation queue, oldest first. */
  function FlaggedReviews(h: Handler): seq<string>
  {
    h.flaggedReviews
  }

  // ---------------------------------------------------------------------
  // Statistics
  // ---------------------------------------------------------------------

  datatype ActionStats = ActionStats(totalActions: nat, removed: nat, flagged: nat, published: nat,
                                     blockedUsers: nat)

  /** Number of entries whose `decision` key equals `d`; block records have
      no such key. */
  function Tally(es: seq<LogEntry>, d: Decision): (n: nat)
    ensures n <= |es|
  {
    if |es| == 0 then 0
    else Tally(es[..|es| - 1], d)
         + (if es[|es| - 1].DecisionEntry? && es[|es| - 1].decision == Some(d) then 1 else 0)
  }

  /** Each entry has at most one decision, so the three tallies together
      never exceed the number of entries. */
  lemma {:induction false} TalliesBounded(es: seq<LogEntry>)
    ensures Tally(es, Remove) + Tally(es, FlagForReview) + Tally(es, Publish) <= |es|
  {
    if |es| > 0 {
      TalliesBounded(es[..|es| - 1]);
    }
  }

  /** `get_statistics`: counts read back from the log file; the blocked
      count is the size of the in-memory set. A missing or unreadable log
      yields None instead of an exception. */
  function GetStatistics(h: Handler): (r: Option<ActionStats>)
    ensures r.None? <==> !h.log.Present?
    ensures r.Some? ==> r.value.totalActions == |h.log.entries|
    ensures r.Some? ==> r.value.removed == Tally(h.log.entries, Remove)
    ensures r.Some? ==> r.value.flagged == Tally(h.log.entries, FlagForReview)
    ensures r.Some? ==> r.value.published == Tally(h.log.entries, Publish)
    ensures r.Some? ==> r.value.removed + r.value.flagged + r.value.published <= r.value.totalActions
    ensures r.Some? ==> r.value.blockedUsers == |h.blockedUsers|
  {
    match h.log
    case Present(es) =>
      TalliesBounded(es);
      Some(ActionStats(|es|, Tally(es, Remove), Tally(es, FlagForReview), Tally(es, Publish), |h.blockedUsers|))
    case _ => None
  }

  /** A BLOCK_USER record adds one to the total and nothing to any decision tally. */
  lemma BlockEntryCountsOnlyInTotal(es: seq<LogEntry>, b: LogEntry, d: Decision)
    requires b.BlockEntry?
    ensures Tally(es + [b], d) == Tally(es, d)
    ensures |es + [b]| == |es| + 1
  {
    assert (es + [b])[..|es + [b]| - 1] == es;
  }

  /** Blocking the same user twice, whatever the reasons, leaves the user in
      the set once: the blocked count is that of a single block, while the
      log holds two BLOCK_USER records. */
  lemma BlockTwice(h: Handler, userId: string, reason1: string, reason2: string, now1: string, now2: string)
    requires !h.log.Unreadable?
    ensures var once := BlockUser(h, userId, reason1, now1, Written);
            var twice := BlockUser(once, userId, reason2, now2, Written);
            twice.blockedUsers == once.blockedUsers
            && GetStatistics(twice).Some?
            && GetStatistics(twice).value.blockedUsers == |h.blockedUsers + {userId}|
            && GetStatistics(twice).value.totalActions == |Entries(h.log)| + 2
  {
  }

  // ---------------------------------------------------------------------
  // A run of decisions
  // ---------------------------------------------------------------------

  datatype Event = Event(reviewId: string, prediction: string, confidence: real, userId: Option<string>,
                         now: string, write: WriteOutcome)

  function Replay(h: Handler, events: seq<Event>): Handler
    decreases |events|
  {
    if |events| == 0 then h
    else
      var e := events[0];
      Replay(DecideAction(h, e.reviewId, e.prediction, e.confidence, e.userId, e.now, e.write).handler,
             events[1..])
  }

  /** The review ids a run sends to the moderation queue, by the policy alone. */
  function FlaggedIds(events: seq<Event>): seq<string>
    decreases |events|
  {
    if |events| == 0 then []
    else (if Policy(events[0].prediction, events[0].confidence) == Some(FlagForReview)
          then [events[0].reviewId] else [])
         + FlaggedIds(events[1..])
  }

  /** After a run of decisions the flagged list is the old list followed by
      exactly the FLAG_FOR_REVIEW review ids, in order, whatever happened to
      the log writes; the blocked set is untouched. */
  lemma {:induction false} ReplayFlagged(h: Handler, events: seq<Event>)
    ensures Replay(h, events).flaggedReviews == h.flaggedReviews + FlaggedIds(events)
    ensures Replay(h, events).blockedUsers == h.blockedUsers
    decreases |events|
  {
    if |events| > 0 {
      var e := events[0];
      var h1 := DecideAction(h, e.reviewId, e.prediction, e.confidence, e.userId, e.now, e.write).handler;
      ReplayFlagged(h1, events[1..]);
      assert h.flaggedReviews + FlaggedIds(events)
          == h1.flaggedReviews + FlaggedIds(events[1..]);
    }
  }

  /** A review is sent to the moderation queue by some event of the run. */
  predicate FlaggedBySomeEvent(events: seq<Event>, id: string)
  {
    exists j :: 0 <= j < |events| && events[j].reviewId == id
                && events[j].prediction == "FAKE" && 0.7 <= events[j].confidence < 0.9
  }

  lemma {:induction false} FlaggedIdsMembers(events: seq<Event>, id: string)
    ensures id in FlaggedIds(events) <==> FlaggedBySomeEvent(events, id)
    decreases |events|
  {
    if |events| > 0 {
      var rest := events[1..];
      FlaggedIdsMembers(rest, id);
      if FlaggedBySomeEvent(rest, id) {
        var j :| 0 <= j < |rest| && rest[j].reviewId == id
                 && rest[j].prediction == "FAKE" && 0.7 <= rest[j].confidence < 0.9;
        assert events[j + 1] == rest[j];
      }
      if FlaggedBySomeEvent(events, id) {
        var j :| 0 <= j < |events| && events[j].reviewId == id
                 && events[j].prediction == "FAKE" && 0.7 <= events[j].confidence < 0.9;
        if j > 0 {
          assert rest[j - 1] == events[j];
        }
      }
    }
  }

  /** `get_flagged_reviews` on a fresh handler after a run of decisions: the
      FLAG_FOR_REVIEW ids in decision order, and an id is listed exactly when
      some FAKE prediction of confidence in [0.7, 0.9) was made for it. */
  lemma FlaggedReviewsAfterRun(existing: LogFile, events: seq<Event>, id: string)
    ensures FlaggedReviews(Replay(Init(existing), events)) == FlaggedIds(events)
    ensures id in FlaggedReviews(Replay(Init(existing), events)) <==> FlaggedBySomeEvent(events, id)
  {
    ReplayFlagged(Init(existing), events);
    FlaggedIdsMembers(events, id);
  }
}

=== FILE: behavioral_features.dfy ===
/** `BehavioralFeatureExtractor`: five column-adding steps over a frame of
    review metadata, each falling back to a constant column when the
    columns it needs are absent. The burst step re-orders the frame by
    (user, timestamp) and compares each review with the previous one by the
    same user. Timestamps are whole seconds on one clock; a value pandas
    could not parse (NaT) is None; the current time is a parameter. */
module BehavioralFeatures {
  import opened Common
  import Text

  datatype Review = Review(userId: string, productId: string, rating: real,
                           timestamp: Option<int>, accountCreated: Option<int>,
                           verifiedPurchase: bool)

  /** Which optional columns the input frame has. */
  datatype Columns = Columns(userId: bool, productId: bool, rating: bool, timestamp: bool,
                             accountCreated: bool, verifiedPurchase: bool)

  /** A review with the feature columns the steps add. Before a step has run
      its column holds a placeholder (0, 0.0 or None). `timeDiff` is None
      for NaN, and also while the burst step has not created the column. */
  datatype Row = Row(review: Review, reviewFrequency: nat, ratingDeviation: real,
                     timeDiff: Option<int>, burstActivity: int,
                     accountAgeDays: Option<int>, newAccount: int, isVerified: int)

  /** Two reviews by one user less than this many seconds apart form a burst. */
  const BurstWindow: int := 3600
  const SecondsPerDay: int := 86400
  /** Accounts younger than this many days are new. */
  const NewAccountDays: int := 30
  /** The age assumed for every account when the creation column is absent. */
  const DefaultAccountAgeDays: int := 365

  function Frame(reviews: seq<Review>): (rows: seq<Row>)
    ensures |rows| == |reviews|
    ensures forall i :: 0 <= i < |rows| ==> rows[i].review == reviews[i]
  {
    seq(|reviews|, i requires 0 <= i < |reviews| => Row(reviews[i], 0, 0.0, None, 0, None, 0, 0))
  }

  function ReviewOf(r: Row): Review
  {
    r.review
  }

  /** A row with the two burst columns reset to their placeholders. */
  function Unmarked(r: Row): Row
  {
    r.(timeDiff := None, burstActivity := 0)
  }

  function SameUser(u: string): Row -> bool
  {
    (r: Row) => r.review.userId == u
  }

  function SameProduct(p: string): Row -> bool
  {
    (r: Row) => r.review.productId == p
  }

  // ---------------------------------------------------------------------
  // Review frequency
  // ---------------------------------------------------------------------

  /** The number of rows by the author of row `i`, which includes row `i`. */
  function UserFrequency(rows: seq<Row>, i: int): (n: nat)
    requires 0 <= i < |rows|
    ensures 1 <= n <= |rows|
    ensures n == Count(rows, SameUser(rows[i].review.userId))
  {
    CountZero(rows, SameUser(rows[i].review.userId));
    Count(rows, SameUser(rows[i].review.userId))
  }

  /** `extract_review_frequency`. */
  function ExtractReviewFrequency(cols: Columns, rows: seq<Row>): (out: seq<Row>)
    ensures |out| == |rows|
    ensures forall i :: 0 <= i < |rows| ==> out[i] == rows[i].(reviewFrequency := out[i].reviewFrequency)
    ensures forall i :: 0 <= i < |rows| ==> 1 <= out[i].reviewFrequency <= |rows|
    ensures !cols.userId ==> forall i :: 0 <= i < |rows| ==> out[i].reviewFrequency == 1
    ensures cols.userId ==> forall i :: 0 <= i < |rows| ==>
              out[i].reviewFrequency == Count(rows, SameUser(rows[i].review.userId))
    ensures cols.userId ==> forall i, j :: 0 <= i < |rows| && 0 <= j < |rows| ==>
              (rows[i].review.userId == rows[j].review.userId ==> out[i].reviewFrequency == out[j].reviewFrequency)
  {
    seq(|rows|, i requires 0 <= i < |rows| =>
      rows[i].(reviewFrequency := if cols.userId then UserFrequency(rows, i) else 1))
  }

  /** A user whose every review is in the frame once has frequency 1 exactly
      when no other row has the same author. */
  lemma FrequencyOneIffSingleReview(cols: Columns, rows: seq<Row>, i: int)
    requires cols.userId && 0 <= i < |rows|
    ensures ExtractReviewFrequency(cols, rows)[i].reviewFrequency == 1
            <==> forall j :: 0 <= j < |rows| && j != i ==> rows[j].review.userId != rows[i].review.userId
  {
    var u := rows[i].review.userId;
    if exists j :: 0 <= j < |rows| && j != i && rows[j].review.userId == u {
      var j :| 0 <= j < |rows| && j != i && rows[j].review.userId == u;
      if i < j { CountTwo(rows, SameUser(u), i, j); } else { CountTwo(rows, SameUser(u), j, i); }
    } else {
      RemoveAtCount(rows, i, SameUser(u));
      var rest := rows[..i] + rows[i + 1..];
      forall k | 0 <= k < |rest| ensures !SameUser(u)(rest[k]) {
        if k < i { assert rest[k] == rows[k]; } else { assert rest[k] == rows[k + 1]; }
      }
      CountZero(rest, SameUser(u));
    }
  }

  // ---------------------------------------------------------------------
  // Rating deviation
  // ---------------------------------------------------------------------

  /** The `rating` column. */
  function RatingOf(r: Row): real { r.review.rating }

  /** Total rating of product `p`, accumulated row by row. */
  function ProductRatingSum(rows: seq<Row>, p: string): real
  {
    if |rows| == 0 then 0.0
    else ProductRatingSum(rows[..|rows| - 1], p)
         + (if rows[|rows| - 1].review.productId == p then rows[|rows| - 1].review.rating else 0.0)
  }

  /** Summing the ratings of the product's group is the row-by-row total. */
  lemma {:induction false} GroupRatingSum(rows: seq<Row>, p: string)
    ensures Sum(MapSeq(Filter(rows, SameProduct(p)), RatingOf)) == ProductRatingSum(rows, p)
  {
    if |rows| > 0 {
      var init := rows[..|rows| - 1];
      var last := rows[|rows| - 1];
      var tail: seq<Row> := if SameProduct(p)(last) then [last] else [];
      GroupRatingSum(init, p);
      assert Filter(rows, SameProduct(p)) == Filter(init, SameProduct(p)) + tail;
      MapSeqAppend(Filter(init, SameProduct(p)), tail, RatingOf);
      SumAppend(MapSeq(Filter(init, SameProduct(p)), RatingOf), MapSeq(tail, RatingOf));
      if SameProduct(p)(last) {
        assert MapSeq(tail, RatingOf)[..0] == [];
      } else {
        assert MapSeq(tail, RatingOf) == [];
      }
    }
  }

  /** Mean rating over the rows of the product of row `i` (never empty):
      the product's total rating over its row count. */
  function ProductMean(rows: seq<Row>, i: int): (m: real)
    requires 0 <= i < |rows|
    ensures Count(rows, SameProduct(rows[i].review.productId)) > 0
    ensures m == ProductRatingSum(rows, rows[i].review.productId)
                 / (Count(rows, SameProduct(rows[i].review.productId)) as real)
  {
    GroupMean(rows, rows[i].review.productId, i);
    Mean(MapSeq(Filter(rows, SameProduct(rows[i].review.productId)), RatingOf)).value
  }

  /** The mean of a non-empty product group is the product's total rating
      over the group's size. */
  lemma GroupMean(rows: seq<Row>, p: string, i: int)
    requires 0 <= i < |rows| && rows[i].review.productId == p
    ensures Count(rows, SameProduct(p)) > 0
    ensures Mean(MapSeq(Filter(rows, SameProduct(p)), RatingOf))
            == Some(ProductRatingSum(rows, p) / (Count(rows, SameProduct(p)) as real))
  {
    var rs := MapSeq(Filter(rows, SameProduct(p)), RatingOf);
    CountZero(rows, SameProduct(p));
    GroupRatingSum(rows, p);
    assert |rs| == Count(rows, SameProduct(p));
  }

  /** When every rating of the product of row `i` lies in [lo, hi], so does
      the product mean. */
  lemma ProductMeanWithin(rows: seq<Row>, i: int, lo: real, hi: real)
    requires 0 <= i < |rows|
    requires forall j :: 0 <= j < |rows| && rows[j].review.productId == rows[i].review.productId ==>
               lo <= rows[j].review.rating <= hi
    ensures lo <= ProductMean(rows, i) <= hi
  {
    var p := rows[i].review.productId;
    var group := Filter(rows, SameProduct(p));
    CountZero(rows, SameProduct(p));
    var rs := MapSeq(group, RatingOf);
    forall k | 0 <= k < |rs| ensures lo <= rs[k] <= hi {
      assert SameProduct(p)(group[k]);
      assert group[k] in rows;
    }
    MeanBetween(rs, lo, hi);
  }

  /** The deviation column at row `i`. */
  function Deviation(cols: Columns, rows: seq<Row>, i: int): (d: real)
    requires 0 <= i < |rows|
    ensures d >= 0.0
    ensures !(cols.rating && cols.productId) ==> d == 0.0
    ensures cols.rating && cols.productId ==> d == Abs(rows[i].review.rating - ProductMean(rows, i))
  {
    if cols.rating && cols.productId then Abs(rows[i].review.rating - ProductMean(rows, i)) else 0.0
  }

  /** `extract_rating_deviation`. */
  function ExtractRatingDeviation(cols: Columns, rows: seq<Row>): (out: seq<Row>)
    ensures |out| == |rows|
    ensures forall i :: 0 <= i < |rows| ==> out[i] == rows[i].(ratingDeviation := out[i].ratingDeviation)
    ensures forall i :: 0 <= i < |rows| ==> out[i].ratingDeviation >= 0.0
    ensures !(cols.rating && cols.productId) ==> forall i :: 0 <= i < |rows| ==> out[i].ratingDeviation == 0.0
    ensures cols.rating && cols.productId ==> forall i :: 0 <= i < |rows| ==>
              out[i].ratingDeviation == Abs(rows[i].review.rating - ProductMean(rows, i))
  {
    seq(|rows|, i requires 0 <= i < |rows| => rows[i].(ratingDeviation := Deviation(cols, rows, i)))
  }

  /** When every rating of a product lies in [lo, hi], each of its reviews
      deviates from the product mean by at most hi - lo; in particular a
      product rated uniformly has deviation 0 everywhere. */
  lemma DeviationWithinSpread(cols: Columns, rows: seq<Row>, i: int, lo: real, hi: real)
    requires cols.rating && cols.productId && 0 <= i < |rows|
    requires forall j :: 0 <= j < |rows| && rows[j].review.productId == rows[i].review.productId ==>
               lo <= rows[j].review.rating <= hi
    ensures ExtractRatingDeviation(cols, rows)[i].ratingDeviation <= hi - lo
  {
    ProductMeanWithin(rows, i, lo, hi);
    assert ExtractRatingDeviation(cols, rows)[i].ratingDeviation == Deviation(cols, rows, i);
  }

  // ---------------------------------------------------------------------
  // Burst activity
  // ---------------------------------------------------------------------

  /** Timestamp order with NaT placed last. */
  predicate TimeLe(a: Option<int>, b: Option<int>)
  {
    b.None? || (a.Some? && a.value <= b.value)
  }

  /** The sort key (user, timestamp). */
  predicate KeyLe(x: Row, y: Row)
  {
    Text.LexLe(x.review.userId, y.review.userId)
    && (x.review.userId == y.review.userId ==> TimeLe(x.review.timestamp, y.review.timestamp))
  }

  lemma KeyTotal(x: Row, y: Row)
    ensures KeyLe(x, y) || KeyLe(y, x)
  {
    Text.LexTotal(x.review.userId, y.review.userId);
    if x.review.userId == y.review.userId {
      Text.LexReflexive(x.review.userId);
    }
  }

  lemma KeyTransitive(x: Row, y: Row, z: Row)
    requires KeyLe(x, y) && KeyLe(y, z)
    ensures KeyLe(x, z)
  {
    Text.LexTransitive(x.review.userId, y.review.userId, z.review.userId);
    if x.review.userId == z.review.userId {
      Text.LexAntisymmetric(x.review.userId, y.review.userId);
    }
  }

  predicate SortedByUserTime(s: seq<Row>)
  {
    forall i, j :: 0 <= i < j < |s| ==> KeyLe(s[i], s[j])
  }

  /** Places `x` before the first element it does not exceed, so it stays
      ahead of rows with an equal key (the sort is stable). */
  function Insert(x: Row, s: seq<Row>): (r: seq<Row>)
    ensures |r| == |s| + 1
    ensures multiset(r) == multiset(s) + multiset{x}
  {
    if |s| == 0 || KeyLe(x, s[0]) then [x] + s
    else
      assert s == [s[0]] + s[1..];
      [s[0]] + Insert(x, s[1..])
  }

  lemma {:induction false} InsertSorted(x: Row, s: seq<Row>)
    requires SortedByUserTime(s)
    ensures SortedByUserTime(Insert(x, s))
  {
    if |s| == 0 {
    } else if KeyLe(x, s[0]) {
      forall j | 0 <= j < |s| ensures KeyLe(x, s[j]) {
        if j > 0 { KeyTransitive(x, s[0], s[j]); }
      }
    } else {
      KeyTotal(x, s[0]);
      var tail := s[1..];
      InsertSorted(x, tail);
      var r := Insert(x, tail);
      forall k | 0 <= k < |r| ensures KeyLe(s[0], r[k]) {
        assert r[k] in multiset(r);
        if r[k] != x {
          assert r[k] in multiset(tail);
          var m :| 0 <= m < |tail| && tail[m] == r[k];
          assert s[m + 1] == r[k];
        }
      }
    }
  }

  /** `sort_values(['user_id', 'timestamp'])`. */
  function SortByUserTime(s: seq<Row>): (r: seq<Row>)
    ensures |r| == |s|
    ensures multiset(r) == multiset(s)
    ensures SortedByUserTime(r)
  {
    if |s| == 0 then []
    else
      var rest := SortByUserTime(s[1..]);
      InsertSorted(s[0], rest);
      assert s == [s[0]] + s[1..];
      Insert(s[0], rest)
  }

  /** The closest earlier row by user `u`: what a group-wise `diff` subtracts. */
  function PreviousByUser(s: seq<Row>, u: string, k: int): (r: Option<nat>)
    requires 0 <= k <= |s|
    ensures r.Some? ==> r.value < k && s[r.value].review.userId == u
                        && forall m :: r.value < m < k ==> s[m].review.userId != u
    ensures r.None? <==> forall m :: 0 <= m < k ==> s[m].review.userId != u
  {
    if k == 0 then None
    else if s[k - 1].review.userId == u then Some(k - 1)
    else PreviousByUser(s, u, k - 1)
  }

  /** `groupby('user_id')['timestamp'].diff()` at row `k`, in seconds. */
  function GroupDiff(s: seq<Row>, k: int): Option<int>
    requires 0 <= k < |s|
  {
    var prev := PreviousByUser(s, s[k].review.userId, k);
    if prev.Some? && s[prev.value].review.timestamp.Some? && s[k].review.timestamp.Some?
    then Some(s[k].review.timestamp.value - s[prev.value].review.timestamp.value)
    else None
  }

  /** The difference with the row just above, when that row is by the same
      user and both timestamps parse. */
  function AdjacentDiff(s: seq<Row>, k: int): Option<int>
    requires 0 <= k < |s|
  {
    if k > 0 then ReviewDiff(s[k - 1].review, s[k].review) else None
  }

  /** Seconds from `a` to `b` when both are by the same user and both
      timestamps parse. */
  function ReviewDiff(a: Review, b: Review): Option<int>
  {
    if a.userId == b.userId && a.timestamp.Some? && b.timestamp.Some?
    then Some(b.timestamp.value - a.timestamp.value)
    else None
  }

  /** Burst marking on an already ordered frame. */
  function MarkBursts(s: seq<Row>): (out: seq<Row>)
    ensures |out| == |s|
    ensures forall k :: 0 <= k < |s| ==> out[k] == s[k].(timeDiff := out[k].timeDiff, burstActivity := out[k].burstActivity)
    ensures forall k :: 0 <= k < |s| ==> 0 <= out[k].burstActivity <= 1
    // the recorded difference is the group-wise one
    ensures forall k :: 0 <= k < |s| ==> out[k].timeDiff == GroupDiff(s, k)
    ensures forall k :: 0 <= k < |s| ==>
              (out[k].burstActivity == 1 <==> out[k].timeDiff.Some? && out[k].timeDiff.value < BurstWindow)
  {
    seq(|s|, k requires 0 <= k < |s| =>
      var d := GroupDiff(s, k);
      s[k].(timeDiff := d, burstActivity := Bit(d.Some? && d.value < BurstWindow)))
  }

  /** In a frame ordered by (user, timestamp) each user's rows are
      contiguous, so the group-wise difference is the difference with the
      row just above when it has the same author, and is never negative. */
  lemma SortedGroupDiff(s: seq<Row>, k: int)
    requires SortedByUserTime(s) && 0 <= k < |s|
    ensures GroupDiff(s, k) == AdjacentDiff(s, k)
    ensures GroupDiff(s, k).Some? ==> GroupDiff(s, k).value >= 0
  {
    var u := s[k].review.userId;
    if k > 0 && s[k - 1].review.userId != u {
      forall m | 0 <= m < k ensures s[m].review.userId != u {
        if m < k - 1 && s[m].review.userId == u {
          assert KeyLe(s[m], s[k - 1]) && KeyLe(s[k - 1], s[k]);
          Text.LexAntisymmetric(u, s[k - 1].review.userId);
        }
      }
    }
    if k > 0 {
      assert KeyLe(s[k - 1], s[k]);
    }
  }

  /** Marking a sorted frame: every row's difference and burst flag are
      those of the row just above it. */
  lemma MarkSortedFrame(s: seq<Row>)
    requires SortedByUserTime(s)
    ensures var out := MarkBursts(s);
            forall k :: 0 <= k < |out| ==>
              && out[k].timeDiff == AdjacentDiff(out, k)
              && (out[k].burstActivity == 1 <==>
                    k > 0 && out[k - 1].review.userId == out[k].review.userId
                    && out[k - 1].review.timestamp.Some? && out[k].review.timestamp.Some?
                    && 0 <= out[k].review.timestamp.value - out[k - 1].review.timestamp.value < BurstWindow)
  {
    var out := MarkBursts(s);
    forall k | 0 <= k < |out| {
      MarkSortedRow(s, out, k);
    }
  }

  lemma MarkSortedRow(s: seq<Row>, out: seq<Row>, k: int)
    requires SortedByUserTime(s) && out == MarkBursts(s) && 0 <= k < |s|
    ensures out[k].timeDiff == AdjacentDiff(out, k)
    ensures out[k].burstActivity == 1 <==>
              AdjacentDiff(out, k).Some? && 0 <= AdjacentDiff(out, k).value < BurstWindow
  {
    MarkedRow(s, out, k);
    SortedGroupDiff(s, k);
  }

  /** Marking changes no review, so the adjacent difference is the same
      before and after. */
  lemma MarkedRow(s: seq<Row>, out: seq<Row>, k: int)
    requires out == MarkBursts(s) && 0 <= k < |s|
    ensures out[k].timeDiff == GroupDiff(s, k)
    ensures out[k].burstActivity == 1 <==> GroupDiff(s, k).Some? && GroupDiff(s, k).value < BurstWindow
    ensures AdjacentDiff(out, k) == AdjacentDiff(s, k)
  {
    assert out[k].review == s[k].review;
    if k > 0 {
      assert out[k - 1].review == s[k - 1].review;
      assert AdjacentDiff(out, k) == ReviewDiff(s[k - 1].review, s[k].review);
    }
  }

  /** `detect_burst_activity`: with both columns the frame comes back in
      (user, timestamp) order and a row is a burst exactly when the row above
      is by the same author and at most 3599 seconds earlier; without them
      the order is kept and no row is a burst. */
  function DetectBurstActivity(cols: Columns, rows: seq<Row>): (out: seq<Row>)
    ensures |out| == |rows|
    ensures !(cols.userId && cols.timestamp) ==> forall i :: 0 <= i < |rows| ==> out[i] == rows[i].(burstActivity := 0)
    ensures cols.userId && cols.timestamp ==> SortedByUserTime(out)
    ensures cols.userId && cols.timestamp ==>
              multiset(MapSeq(out, Unmarked)) == multiset(MapSeq(rows, Unmarked))
    ensures cols.userId && cols.timestamp ==> forall k :: 0 <= k < |out| ==>
              (out[k].burstActivity == 1 <==>
                 k > 0 && out[k - 1].review.userId == out[k].review.userId
                 && out[k - 1].review.timestamp.Some? && out[k].review.timestamp.Some?
                 && 0 <= out[k].review.timestamp.value - out[k - 1].review.timestamp.value < BurstWindow)
    // the `time_diff` column: the difference with the row above when it is by
    // the same user and both timestamps parse, otherwise missing
    ensures cols.userId && cols.timestamp ==> forall k :: 0 <= k < |out| ==> out[k].timeDiff == AdjacentDiff(out, k)
    ensures forall k :: 0 <= k < |out| ==> 0 <= out[k].burstActivity <= 1
  {
    if cols.userId && cols.timestamp then
      var s := SortByUserTime(rows);
      var out := MarkBursts(s);
      MarkSortedFrame(s);
      MapPermutation(s, rows, Unmarked);
      assert MapSeq(out, Unmarked) == MapSeq(s, Unmarked);
      out
    else
      seq(|rows|, i requires 0 <= i < |rows| => rows[i].(burstActivity := 0))
  }

  // ---------------------------------------------------------------------
  // Account age and verified purchase
  // ---------------------------------------------------------------------

  /** Whole days from `created` to `now`, rounded down as a timedelta's
      `days` is (a creation time in the future gives a negative age). */
  function AgeInDays(created: int, now: int): (d: int)
    ensures d * SecondsPerDay <= now - created < (d + 1) * SecondsPerDay
  {
    (now - created) / SecondsPerDay
  }

  /** `extract_account_age`. */
  function ExtractAccountAge(cols: Columns, rows: seq<Row>, now: int): (out: seq<Row>)
    ensures |out| == |rows|
    ensures forall i :: 0 <= i < |rows| ==>
              out[i] == rows[i].(accountAgeDays := out[i].accountAgeDays, newAccount := out[i].newAccount)
    ensures !cols.accountCreated ==> forall i :: 0 <= i < |rows| ==>
              out[i].accountAgeDays == Some(DefaultAccountAgeDays) && out[i].newAccount == 0
    ensures cols.accountCreated ==> forall i :: 0 <= i < |rows| ==>
              (out[i].accountAgeDays.None? <==> rows[i].review.accountCreated.None?)
    ensures cols.accountCreated ==> forall i :: 0 <= i < |rows| && rows[i].review.accountCreated.Some? ==>
              out[i].accountAgeDays == Some(AgeInDays(rows[i].review.accountCreated.value, now))
    ensures cols.accountCreated ==> forall i :: 0 <= i < |rows| ==>
              (out[i].newAccount == 1 <==> out[i].accountAgeDays.Some? && out[i].accountAgeDays.value < NewAccountDays)
    ensures forall i :: 0 <= i < |rows| ==> 0 <= out[i].newAccount <= 1
  {
    seq(|rows|, i requires 0 <= i < |rows| =>
      if cols.accountCreated then
        var c := rows[i].review.accountCreated;
        var age := if c.Some? then Some(AgeInDays(c.value, now)) else None;
        rows[i].(accountAgeDays := age, newAccount := Bit(age.Some? && age.value < NewAccountDays))
      else
        rows[i].(accountAgeDays := Some(DefaultAccountAgeDays), newAccount := 0))
  }

  /** An account is new exactly when it was created less than 30 days of
      seconds ago (or in the future). */
  lemma NewAccountIffRecent(cols: Columns, rows: seq<Row>, now: int, i: int)
    requires cols.accountCreated && 0 <= i < |rows| && rows[i].review.accountCreated.Some?
    ensures ExtractAccountAge(cols, rows, now)[i].newAccount == 1
            <==> now - rows[i].review.accountCreated.value < NewAccountDays * SecondsPerDay
  {
    var c := rows[i].review.accountCreated.value;
    var d := AgeInDays(c, now);
    if d < NewAccountDays {
      assert (d + 1) * SecondsPerDay <= NewAccountDays * SecondsPerDay;
    } else {
      assert NewAccountDays * SecondsPerDay <= d * SecondsPerDay;
    }
  }

  /** `extract_verified_purchase`. */
  function ExtractVerifiedPurchase(cols: Columns, rows: seq<Row>): (out: seq<Row>)
    ensures |out| == |rows|
    ensures forall i :: 0 <= i < |rows| ==> out[i] == rows[i].(isVerified := out[i].isVerified)
    ensures forall i :: 0 <= i < |rows| ==>
              (out[i].isVerified == 1 <==> cols.verifiedPurchase && rows[i].review.verifiedPurchase)
    ensures forall i :: 0 <= i < |rows| ==> 0 <= out[i].isVerified <= 1
  {
    seq(|rows|, i requires 0 <= i < |rows| =>
      rows[i].(isVerified := if cols.verifiedPurchase then Bit(rows[i].review.verifiedPurchase) else 0))
  }

  // ---------------------------------------------------------------------
  // All features
  // ---------------------------------------------------------------------

  /** `extract_all_behavioral_features`: the five steps in order. */
  function ExtractAll(cols: Columns, reviews: seq<Review>, now: int): (out: seq<Row>)
    ensures |out| == |reviews|
    ensures !(cols.userId && cols.timestamp) ==> forall i :: 0 <= i < |reviews| ==> out[i].review == reviews[i]
    ensures cols.userId && cols.timestamp ==> SortedByUserTime(out)
  {
    var r1 := ExtractReviewFrequency(cols, Frame(reviews));
    var r2 := ExtractRatingDeviation(cols, r1);
    var r3 := DetectBurstActivity(cols, r2);
    var r4 := ExtractAccountAge(cols, r3, now);
    var out := ExtractVerifiedPurchase(cols, r4);
    assert forall i :: 0 <= i < |out| ==> out[i].review == r3[i].review;
    out
  }

  /** The extractor only adds columns: the reviews come out as they went in,
      in the same order unless the burst step sorted them, and as a
      re-arrangement of the input when it did. */
  lemma ExtractAllKeepsReviews(cols: Columns, reviews: seq<Review>, now: int)
    ensures multiset(MapSeq(ExtractAll(cols, reviews, now), ReviewOf)) == multiset(reviews)
  {
    var r0 := Frame(reviews);
    var r1 := ExtractReviewFrequency(cols, r0);
    var r2 := ExtractRatingDeviation(cols, r1);
    var r3 := DetectBurstActivity(cols, r2);
    var r4 := ExtractAccountAge(cols, r3, now);
    var out := ExtractVerifiedPurchase(cols, r4);
    assert out == ExtractAll(cols, reviews, now);
    assert MapSeq(r2, ReviewOf) == reviews;
    assert MapSeq(out, ReviewOf) == MapSeq(r3, ReviewOf);
    if cols.userId && cols.timestamp {
      var s := SortByUserTime(r2);
      assert r3 == MarkBursts(s);
      assert MapSeq(r3, ReviewOf) == MapSeq(s, ReviewOf);
      MapPermutation(s, r2, ReviewOf);
    } else {
      assert MapSeq(r3, ReviewOf) == MapSeq(r2, ReviewOf);
    }
  }

  /** Counting by author looks only at the reviews. */
  lemma {:induction false} CountSameReviews(a: seq<Row>, b: seq<Row>, u: string)
    requires |a| == |b|
    requires forall i :: 0 <= i < |a| ==> a[i].review == b[i].review
    ensures Count(a, SameUser(u)) == Count(b, SameUser(u))
  {
    if |a| > 0 {
      CountSameReviews(a[..|a| - 1], b[..|b| - 1], u);
    }
  }

  /** A row the burst step marks is a row of its input whose author has at
      least two rows there. */
  lemma BurstRowHasTwin(cols: Columns, rows: seq<Row>, k: int) returns (i: int)
    requires cols.userId && cols.timestamp && 0 <= k < |rows|
    ensures 0 <= i < |rows|
    ensures rows[i].review == DetectBurstActivity(cols, rows)[k].review
    ensures rows[i].reviewFrequency == DetectBurstActivity(cols, rows)[k].reviewFrequency
    ensures DetectBurstActivity(cols, rows)[k].burstActivity == 1 ==>
              Count(rows, SameUser(rows[i].review.userId)) >= 2
  {
    var s := SortByUserTime(rows);
    assert DetectBurstActivity(cols, rows) == MarkBursts(s);
    var u := s[k].review.userId;
    SortedGroupDiff(s, k);
    if MarkBursts(s)[k].burstActivity == 1 {
      CountTwo(s, SameUser(u), k - 1, k);
    }
    CountPermutation(s, rows, SameUser(u));
    assert s[k] in multiset(rows);
    i :| 0 <= i < |rows| && rows[i] == s[k];
  }

  /** The account-age and verified-purchase steps leave the burst flag and
      the review frequency of every row as they found them. */
  lemma LastStepsKeepBurst(cols: Columns, r3: seq<Row>, now: int, k: int)
    requires 0 <= k < |r3|
    ensures var out := ExtractVerifiedPurchase(cols, ExtractAccountAge(cols, r3, now));
            |out| == |r3| && out[k].burstActivity == r3[k].burstActivity
            && out[k].reviewFrequency == r3[k].reviewFrequency
  {
    var r4 := ExtractAccountAge(cols, r3, now);
    assert r4[k].burstActivity == r3[k].burstActivity && r4[k].reviewFrequency == r3[k].reviewFrequency;
  }

  /** A review flagged as a burst belongs to a user with at least two
      reviews in the frame: its `review_frequency` is at least 2. */
  lemma BurstNeedsRepeatReviewer(cols: Columns, reviews: seq<Review>, now: int, k: int)
    requires 0 <= k < |reviews|
    ensures ExtractAll(cols, reviews, now)[k].burstActivity == 1 ==>
              ExtractAll(cols, reviews, now)[k].reviewFrequency >= 2
  {
    var r0 := Frame(reviews);
    var r1 := ExtractReviewFrequency(cols, r0);
    var r2 := ExtractRatingDeviation(cols, r1);
    var r3 := DetectBurstActivity(cols, r2);
    var out := ExtractAll(cols, reviews, now);
    LastStepsKeepBurst(cols, r3, now, k);
    assert out == ExtractVerifiedPurchase(cols, ExtractAccountAge(cols, r3, now));
    if out[k].burstActivity != 1 {
      return;
    }
    assert cols.userId && cols.timestamp;
    var i := BurstRowHasTwin(cols, r2, k);
    CountSameReviews(r2, r0, r2[i].review.userId);
    assert r2[i].reviewFrequency == r1[i].reviewFrequency == Count(r0, SameUser(r0[i].review.userId));
  }
}

=== FILE: common.dfy ===
/** Small shared vocabulary: an optional value, counting over sequences,
    sums and means of reals, and absolute value. */
module Common {

  /** A value that may be absent: Python's `None`, a missing file, or a
      pandas NaN produced by an empty mean. */
  datatype Option<+T> = None | Some(value: T)

  function Abs(x: real): (r: real)
    ensures r >= 0.0
    ensures r == x || r == -x
  {
    if x < 0.0 then -x else x
  }

  /** A boolean column as pandas' `astype(int)` stores it. */
  function Bit(b: bool): (n: int)
    ensures 0 <= n <= 1
    ensures n == 1 <==> b
  {
    if b then 1 else 0
  }

  /** Number of elements of `s` satisfying `p`. */
  function Count<T>(s: seq<T>, p: T -> bool): (n: nat)
    ensures n <= |s|
  {
    if |s| == 0 then 0 else Count(s[..|s| - 1], p) + (if p(s[|s| - 1]) then 1 else 0)
  }

  lemma {:induction false} CountAppend<T>(a: seq<T>, b: seq<T>, p: T -> bool)
    ensures Count(a + b, p) == Count(a, p) + Count(b, p)
    decreases |b|
  {
    if |b| == 0 {
      assert a + b == a;
    } else {
      assert (a + b)[..|a + b| - 1] == a + b[..|b| - 1];
      CountAppend(a, b[..|b| - 1], p);
    }
  }

  /** Counting distributes over the elements: the count is the number of
      indices whose element satisfies `p`. */
  lemma {:induction false} CountZero<T>(s: seq<T>, p: T -> bool)
    ensures Count(s, p) == 0 <==> forall i :: 0 <= i < |s| ==> !p(s[i])
  {
    if |s| > 0 {
      CountZero(s[..|s| - 1], p);
      assert forall i :: 0 <= i < |s| - 1 ==> s[..|s| - 1][i] == s[i];
    }
  }

  lemma {:induction false} CountAll<T>(s: seq<T>, p: T -> bool)
    ensures Count(s, p) == |s| <==> forall i :: 0 <= i < |s| ==> p(s[i])
  {
    if |s| > 0 {
      CountAll(s[..|s| - 1], p);
      assert forall i :: 0 <= i < |s| - 1 ==> s[..|s| - 1][i] == s[i];
    }
  }

  /** Two predicates that never hold together count at most the whole sequence. */
  lemma {:induction false} CountDisjoint<T>(s: seq<T>, p: T -> bool, q: T -> bool)
    requires forall x :: !(p(x) && q(x))
    ensures Count(s, p) + Count(s, q) <= |s|
  {
    if |s| > 0 {
      CountDisjoint(s[..|s| - 1], p, q);
    }
  }

  /** If every element satisfies p or q (and never both), the two counts cover the sequence. */
  lemma {:induction false} CountPartition<T>(s: seq<T>, p: T -> bool, q: T -> bool)
    requires forall x :: !(p(x) && q(x))
    requires forall i :: 0 <= i < |s| ==> p(s[i]) || q(s[i])
    ensures Count(s, p) + Count(s, q) == |s|
  {
    if |s| > 0 {
      assert forall i :: 0 <= i < |s| - 1 ==> s[..|s| - 1][i] == s[i];
      CountPartition(s[..|s| - 1], p, q);
    }
  }

  /** Two distinct positions satisfying `p` make a count of at least two. */
  lemma CountTwo<T>(s: seq<T>, p: T -> bool, i: int, j: int)
    requires 0 <= i < j < |s| && p(s[i]) && p(s[j])
    ensures Count(s, p) >= 2
  {
    assert s == s[..j] + s[j..];
    CountAppend(s[..j], s[j..], p);
    assert s[..j][i] == s[i];
    CountZero(s[..j], p);
    assert s[j..][0] == s[j];
    CountZero(s[j..], p);
  }

  lemma MultisetCancel<T>(m1: multiset<T>, m2: multiset<T>, x: T)
    requires m1 + multiset{x} == m2 + multiset{x}
    ensures m1 == m2
  {
    forall y ensures m1[y] == m2[y] {
      assert (m1 + multiset{x})[y] == (m2 + multiset{x})[y];
    }
  }

  /** Taking out the element at `i` removes one copy of it. */
  lemma RemoveAtMultiset<T>(b: seq<T>, i: int)
    requires 0 <= i < |b|
    ensures multiset(b) == multiset(b[..i] + b[i + 1..]) + multiset{b[i]}
  {
    var l, r := b[..i], b[i + 1..];
    assert b == l + [b[i]] + r;
    assert multiset(b) == multiset(l) + multiset{b[i]} + multiset(r);
    assert multiset(l + r) == multiset(l) + multiset(r);
  }

  lemma CountAround<T>(l: seq<T>, x: T, r: seq<T>, p: T -> bool)
    ensures Count(l + ([x] + r), p) == Count(l + r, p) + Bit(p(x))
  {
    CountAppend(l, [x] + r, p);
    CountAppend([x], r, p);
    CountAppend(l, r, p);
    assert [x][..0] == [];
  }

  lemma RemoveAtCount<T>(b: seq<T>, i: int, p: T -> bool)
    requires 0 <= i < |b|
    ensures Count(b, p) == Count(b[..i] + b[i + 1..], p) + Bit(p(b[i]))
  {
    var l, x, r := b[..i], b[i], b[i + 1..];
    var whole := l + ([x] + r);
    assert whole == b;
    CountAround(l, x, r, p);
  }

  lemma RemoveAtMap<T, U>(b: seq<T>, i: int, f: T -> U)
    requires 0 <= i < |b|
    ensures multiset(MapSeq(b, f)) == multiset(MapSeq(b[..i] + b[i + 1..], f)) + multiset{f(b[i])}
  {
    var l, x, r := b[..i], b[i], b[i + 1..];
    assert b == l + ([x] + r);
    MapSeqAppend(l, [x] + r, f);
    MapSeqAppend([x], r, f);
    MapSeqAppend(l, r, f);
    assert MapSeq([x], f) == [f(x)];
    assert MapSeq(b, f) == MapSeq(l, f) + [f(x)] + MapSeq(r, f);
  }

  /** Counting does not depend on the order of the elements. */
  lemma {:induction false} CountPermutation<T>(a: seq<T>, b: seq<T>, p: T -> bool)
    requires multiset(a) == multiset(b)
    ensures Count(a, p) == Count(b, p)
    decreases |a|
  {
    if |a| == 0 {
      assert |multiset(b)| == 0;
    } else {
      var n := |a| - 1;
      var x := a[n];
      assert x in multiset(b);
      var i :| 0 <= i < |b| && b[i] == x;
      RemoveAtMultiset(a, n);
      RemoveAtMultiset(b, i);
      RemoveAtCount(a, n, p);
      RemoveAtCount(b, i, p);
      assert a[..n] + a[n + 1..] == a[..n];
      MultisetCancel(multiset(a[..n]), multiset(b[..i] + b[i + 1..]), x);
      CountPermutation(a[..n], b[..i] + b[i + 1..], p);
    }
  }

  /** `f` applied to every element (a derived column). */
  function MapSeq<T, U>(s: seq<T>, f: T -> U): (r: seq<U>)
    ensures |r| == |s|
    ensures forall i :: 0 <= i < |s| ==> r[i] == f(s[i])
  {
    seq(|s|, i requires 0 <= i < |s| => f(s[i]))
  }

  lemma MapSeqAppend<T, U>(a: seq<T>, b: seq<T>, f: T -> U)
    ensures MapSeq(a + b, f) == MapSeq(a, f) + MapSeq(b, f)
  {
  }

  /** Re-ordering the rows re-orders the derived column the same way. */
  lemma {:induction false} MapPermutation<T, U>(a: seq<T>, b: seq<T>, f: T -> U)
    requires multiset(a) == multiset(b)
    ensures multiset(MapSeq(a, f)) == multiset(MapSeq(b, f))
    decreases |a|
  {
    if |a| == 0 {
      assert |multiset(b)| == 0;
    } else {
      var n := |a| - 1;
      var x := a[n];
      assert x in multiset(b);
      var i :| 0 <= i < |b| && b[i] == x;
      RemoveAtMultiset(a, n);
      RemoveAtMultiset(b, i);
      assert a[..n] + a[n + 1..] == a[..n];
      MultisetCancel(multiset(a[..n]), multiset(b[..i] + b[i + 1..]), x);
      MapPermutation(a[..n], b[..i] + b[i + 1..], f);
      RemoveAtMap(a, n, f);
      RemoveAtMap(b, i, f);
    }
  }

  /** The elements of `s` satisfying `p`, in order (a boolean-mask selection). */
  function Filter<T>(s: seq<T>, p: T -> bool): (r: seq<T>)
    ensures |r| == Count(s, p)
    ensures forall i :: 0 <= i < |r| ==> p(r[i])
    ensures forall i :: 0 <= i < |r| ==> r[i] in s
  {
    if |s| == 0 then [] else Filter(s[..|s| - 1], p) + (if p(s[|s| - 1]) then [s[|s| - 1]] else [])
  }

  /** Counting `q` over the `p`-selection counts the elements satisfying both. */
  lemma {:induction false} CountOverFilter<T>(s: seq<T>, p: T -> bool, q: T -> bool, pq: T -> bool)
    requires forall x :: pq(x) <==> p(x) && q(x)
    ensures Count(Filter(s, p), q) == Count(s, pq)
  {
    if |s| > 0 {
      var init := s[..|s| - 1];
      var last := s[|s| - 1];
      CountOverFilter(init, p, q, pq);
      var tail: seq<T> := if p(last) then [last] else [];
      CountAppend(Filter(init, p), tail, q);
      if p(last) {
        assert tail[..0] == [];
      }
    }
  }

  function Sum(s: seq<real>): real
  {
    if |s| == 0 then 0.0 else Sum(s[..|s| - 1]) + s[|s| - 1]
  }

  lemma {:induction false} SumAppend(a: seq<real>, b: seq<real>)
    ensures Sum(a + b) == Sum(a) + Sum(b)
    decreases |b|
  {
    if |b| == 0 {
      assert a + b == a;
    } else {
      assert (a + b)[..|a + b| - 1] == a + b[..|b| - 1];
      SumAppend(a, b[..|b| - 1]);
    }
  }

  /** Every element at least `lo` and at most `hi` bounds the sum. */
  lemma {:induction false} SumBounds(s: seq<real>, lo: real, hi: real)
    requires forall i :: 0 <= i < |s| ==> lo <= s[i] <= hi
    ensures (|s| as real) * lo <= Sum(s) <= (|s| as real) * hi
  {
    if |s| > 0 {
      assert forall i :: 0 <= i < |s| - 1 ==> s[..|s| - 1][i] == s[i];
      SumBounds(s[..|s| - 1], lo, hi);
    }
  }

  /** The arithmetic mean, or None for an empty sequence (pandas' NaN). */
  function Mean(s: seq<real>): (m: Option<real>)
    ensures m.None? <==> |s| == 0
    ensures m.Some? ==> m.value * (|s| as real) == Sum(s)
  {
    if |s| == 0 then None else Some(Sum(s) / (|s| as real))
  }

  /** A mean lies between any lower and upper bound of its elements. */
  lemma MeanBetween(s: seq<real>, lo: real, hi: real)
    requires |s| > 0
    requires forall i :: 0 <= i < |s| ==> lo <= s[i] <= hi
    ensures lo <= Mean(s).value <= hi
  {
    SumBounds(s, lo, hi);
    var n := |s| as real;
    assert n * lo <= Sum(s) <= n * hi;
    assert lo == (n * lo) / n;
    assert hi == (n * hi) / n;
  }

  /** The fraction of elements satisfying `p`, or None when there are none (NaN). */
  function Fraction<T>(s: seq<T>, p: T -> bool): (f: Option<real>)
    ensures f.None? <==> |s| == 0
    ensures f.Some? ==> 0.0 <= f.value <= 1.0
  {
    if |s| == 0 then None else Some((Count(s, p) as real) / (|s| as real))
  }
}

=== FILE: continuous_learning.dfy ===
/** `ContinuousLearning`: human feedback records with a derived `correct`
    flag, the monthly feedback CSV they are saved to, the rule that decides
    whether the model needs retraining, the retraining sequence that archives
    the feedback file once the external trainer has finished, and the error
    statistics read from the file. Files are tables of records keyed by path;
    the trainer and preprocessor are external collaborators that may raise. */
module ContinuousLearning {
  import opened Common
  import Text

  datatype FeedbackRecord = FeedbackRecord(timestamp: string, reviewText: string, predictedLabel: string,
                                           actualLabel: string, confidence: real, correct: bool)

  /** What the loop can see on disk: the CSV tables by path, and how many
      times the model set and the preprocessor artifact have been written. */
  datatype Disk = Disk(files: map<string, seq<FeedbackRecord>>, modelWrites: nat, preprocessorWrites: nat)

  /** The in-process object: the month's feedback path (fixed when it is
      built) and every feedback collected by this process. */
  datatype Learner = Learner(feedbackFile: string, feedbackData: seq<FeedbackRecord>)

  const DefaultAccuracyThreshold: real := 0.85
  const DefaultMinSamples: int := 100
  /** Confidence above which a misclassification is a high-confidence error. */
  const HighConfidence: real := 0.8

  /** `feedback/feedback_<YYYYMM>.csv` under the given directory. */
  function FeedbackPath(feedbackDir: string, month: string): string
  {
    feedbackDir + "/feedback_" + month + ".csv"
  }

  function Init(feedbackDir: string, month: string): (l: Learner)
    ensures l.feedbackData == []
  {
    Learner(FeedbackPath(feedbackDir, month), [])
  }

  /** The rows of the feedback file, or None when it does not exist. */
  function ReadFeedback(l: Learner, disk: Disk): (rows: Option<seq<FeedbackRecord>>)
    ensures rows.Some? <==> l.feedbackFile in disk.files
  {
    if l.feedbackFile in disk.files then Some(disk.files[l.feedbackFile]) else None
  }

  // ---------------------------------------------------------------------
  // Collecting feedback
  // ---------------------------------------------------------------------

  /** `_save_feedback`: the whole in-memory list is written after whatever
      the file already holds, so records saved by earlier calls of this
      process are written again on every save. */
  function SaveFeedback(l: Learner, disk: Disk): (disk': Disk)
    ensures l.feedbackFile in disk'.files
    ensures var old_ := if l.feedbackFile in disk.files then disk.files[l.feedbackFile] else [];
            var new_ := disk'.files[l.feedbackFile];
            && |new_| == |old_| + |l.feedbackData|
            && new_[..|old_|] == old_
            && new_[|old_|..] == l.feedbackData
    ensures forall p :: p != l.feedbackFile ==> (p in disk'.files <==> p in disk.files)
    ensures forall p :: p != l.feedbackFile && p in disk.files ==> disk'.files[p] == disk.files[p]
    ensures disk'.modelWrites == disk.modelWrites && disk'.preprocessorWrites == disk.preprocessorWrites
  {
    var existing := if l.feedbackFile in disk.files then disk.files[l.feedbackFile] else [];
    disk.(files := disk.files[l.feedbackFile := existing + l.feedbackData])
  }

  datatype Collected = Collected(learner: Learner, disk: Disk, feedback: FeedbackRecord)

  /** `collect_feedback`: build the record (correct iff the labels agree),
      remember it, and save. `now` is the ISO timestamp the clock would give. */
  function CollectFeedback(l: Learner, disk: Disk, reviewText: string, predictedLabel: string,
                           actualLabel: string, confidence: real, now: string): (r: Collected)
    ensures r.feedback.correct <==> predictedLabel == actualLabel
    ensures r.feedback.reviewText == reviewText && r.feedback.predictedLabel == predictedLabel
    ensures r.feedback.actualLabel == actualLabel && r.feedback.confidence == confidence
    ensures r.feedback.timestamp == now
    ensures r.learner.feedbackFile == l.feedbackFile
    ensures r.learner.feedbackData == l.feedbackData + [r.feedback]
    ensures r.disk == SaveFeedback(r.learner, disk)
  {
    var fb := FeedbackRecord(now, reviewText, predictedLabel, actualLabel, confidence,
                             predictedLabel == actualLabel);
    var l' := l.(feedbackData := l.feedbackData + [fb]);
    Collected(l', SaveFeedback(l', disk), fb)
  }

  /** Each save grows the file by the whole in-memory list: a process that
      starts with no file and collects two records leaves three rows, the
      first record twice. */
  lemma CollectTwiceRepeatsFirst(dir: string, month: string, disk: Disk,
                                 t1: string, p1: string, a1: string, c1: real, n1: string,
                                 t2: string, p2: string, a2: string, c2: real, n2: string)
    requires FeedbackPath(dir, month) !in disk.files
    ensures var first := CollectFeedback(Init(dir, month), disk, t1, p1, a1, c1, n1);
            var second := CollectFeedback(first.learner, first.disk, t2, p2, a2, c2, n2);
            second.disk.files[FeedbackPath(dir, month)] == [first.feedback, first.feedback, second.feedback]
  {
  }

  // ---------------------------------------------------------------------
  // Retraining readiness
  // ---------------------------------------------------------------------

  predicate IsCorrect(r: FeedbackRecord) { r.correct }

  /** Mean of the `correct` column; None (NaN) for an empty table. */
  function Accuracy(rows: seq<FeedbackRecord>): (a: Option<real>)
    ensures a.None? <==> |rows| == 0
    ensures a.Some? ==> 0.0 <= a.value <= 1.0
  {
    Fraction(rows, IsCorrect)
  }

  /** The reason that accompanies the answer; the percentage formatting of
      the accuracy is not modelled. */
  datatype RetrainMessage =
    | NoFeedbackData
    | InsufficientSamples(samples: nat, minSamples: int)
    | AccuracyDropped(accuracy: real)
    | PerformingWell(observed: Option<real>)

  /** `check_retraining_needed`: no file, or fewer rows than the minimum,
      never triggers; otherwise retraining is needed exactly when the
      accuracy is strictly below the threshold (a NaN accuracy compares
      false). */
  function CheckRetrainingNeeded(l: Learner, disk: Disk, accuracyThreshold: real, minSamples: int): (r: (bool, RetrainMessage))
    ensures l.feedbackFile !in disk.files ==> r == (false, NoFeedbackData)
    ensures l.feedbackFile in disk.files && |disk.files[l.feedbackFile]| < minSamples ==>
              r == (false, InsufficientSamples(|disk.files[l.feedbackFile]|, minSamples))
    ensures l.feedbackFile in disk.files && |disk.files[l.feedbackFile]| >= minSamples ==>
              (r.0 <==> var acc := Accuracy(disk.files[l.feedbackFile]); acc.Some? && acc.value < accuracyThreshold)
    // the message carries the accuracy it was decided on
    ensures l.feedbackFile in disk.files && |disk.files[l.feedbackFile]| >= minSamples ==>
              var acc := Accuracy(disk.files[l.feedbackFile]);
              r.1 == (if r.0 then AccuracyDropped(acc.value) else PerformingWell(acc))
  {
    match ReadFeedback(l, disk)
    case None => (false, NoFeedbackData)
    case Some(rows) =>
      if |rows| < minSamples then (false, InsufficientSamples(|rows|, minSamples))
      else
        var acc := Accuracy(rows);
        if acc.Some? && acc.value < accuracyThreshold then (true, AccuracyDropped(acc.value))
        else (false, PerformingWell(acc))
  }

  /** Two scenarios at the default threshold (0.85) and minimum (100): 50 rows never trigger even at accuracy 0;
      150 rows trigger at accuracy 0.80 and not at 0.90 (threshold 0.85). */
  lemma RetrainingScenarios(l: Learner, disk: Disk)
    requires l.feedbackFile in disk.files
    ensures var rows := disk.files[l.feedbackFile];
            && (|rows| == 50 ==> !CheckRetrainingNeeded(l, disk, DefaultAccuracyThreshold, DefaultMinSamples).0)
            && (|rows| == 150 && Count(rows, IsCorrect) == 120 ==>
                  CheckRetrainingNeeded(l, disk, DefaultAccuracyThreshold, DefaultMinSamples).0)
            && (|rows| == 150 && Count(rows, IsCorrect) == 135 ==>
                  !CheckRetrainingNeeded(l, disk, DefaultAccuracyThreshold, DefaultMinSamples).0)
  {
  }

  // ---------------------------------------------------------------------
  // Retraining
  // ---------------------------------------------------------------------

  /** The steps of `retrain_model`, in the order the code runs them. */
  datatype Stage = ReadFile | PrepareData | TrainAll | SaveModels | DumpPreprocessor | ArchiveFeedback

  /** The first external call that raises, if any: the preprocessor, the
      trainer, the artifact writers or the rename. A missing feedback file
      makes the read raise whatever this says. */
  type Collaborators = Option<Stage>

  datatype RetrainOutcome = Retrained(samples: nat) | Raised(stage: Stage)

  /** What a retrain leaves behind: the disk, how it ended, and the target
      column handed to the trainer (None when training was not reached). */
  datatype RetrainRun = RetrainRun(disk: Disk, outcome: RetrainOutcome, targets: Option<seq<Option<int>>>)

  /** `.csv` replaced, everywhere it occurs, by `_archived_<date>.csv`. */
  function ArchiveName(feedbackFile: string, date: string): string
  {
    Text.ReplaceAll(feedbackFile, ".csv", "_archived_" + date + ".csv")
  }

  /** Training targets: FAKE maps to 1, REAL to 0, anything else to NaN. */
  function TrainingLabel(actualLabel: string): (y: Option<int>)
    ensures y == Some(1) <==> actualLabel == "FAKE"
    ensures y == Some(0) <==> actualLabel == "REAL"
    ensures y.None? <==> actualLabel != "FAKE" && actualLabel != "REAL"
  {
    if actualLabel == "FAKE" then Some(1) else if actualLabel == "REAL" then Some(0) else None
  }

  /** The `label` column built from a row's `actual_label`. */
  function TargetOf(r: FeedbackRecord): Option<int> { TrainingLabel(r.actualLabel) }

  function Rank(s: Stage): nat
  {
    match s
    case ReadFile => 0
    case PrepareData => 1
    case TrainAll => 2
    case SaveModels => 3
    case DumpPreprocessor => 4
    case ArchiveFeedback => 5
  }

  /** The stage `s` finishes: it is reached and does not itself raise. */
  predicate Finished(fails: Collaborators, s: Stage)
  {
    fails.None? || Rank(s) < Rank(fails.value)
  }

  /** `retrain_model`: read the feedback file, fit the preprocessor, train,
      save the models, dump the preprocessor, then rename the feedback file
      to its archive name. An exception stops the sequence where it is
      raised and propagates; nothing already written is rolled back. */
  function RetrainModel(l: Learner, disk: Disk, fails: Collaborators, date: string): (r: RetrainRun)
    ensures l.feedbackFile !in disk.files ==> r == RetrainRun(disk, Raised(ReadFile), None)
    // the trainer is called once the data is prepared, with every row's
    // actual label mapped to its training target
    ensures r.targets.Some? <==> l.feedbackFile in disk.files && Finished(fails, PrepareData)
    ensures r.targets.Some? ==> |r.targets.value| == |disk.files[l.feedbackFile]|
    ensures r.targets.Some? ==> forall i :: 0 <= i < |r.targets.value| ==>
              r.targets.value[i] == TrainingLabel(disk.files[l.feedbackFile][i].actualLabel)
    ensures r.outcome.Retrained? <==> l.feedbackFile in disk.files && fails.None?
    ensures r.outcome.Retrained? ==> r.outcome.samples == |disk.files[l.feedbackFile]|
    // the file is archived only when every training step has finished
    ensures l.feedbackFile in disk.files && l.feedbackFile !in r.disk.files ==>
              Finished(fails, TrainAll) && Finished(fails, SaveModels) && Finished(fails, DumpPreprocessor)
              && r.disk.modelWrites == disk.modelWrites + 1
              && r.disk.preprocessorWrites == disk.preprocessorWrites + 1
    // the exception is the one the failing collaborator raised
    ensures l.feedbackFile in disk.files && r.outcome.Raised? ==> fails == Some(r.outcome.stage)
    // a failure leaves the feedback file where it was, with its rows
    ensures r.outcome.Raised? ==> r.disk.files == disk.files
    ensures r.outcome.Raised? && !Finished(fails, SaveModels) ==> r.disk == disk
    // success: the feedback file is renamed to its archive name, every other
    // file is kept, and both artifacts are written once
    ensures r.outcome.Retrained? ==>
              r.disk == Disk((disk.files - {l.feedbackFile})[ArchiveName(l.feedbackFile, date) := disk.files[l.feedbackFile]],
                             disk.modelWrites + 1, disk.preprocessorWrites + 1)
    // no rollback: a failure after the model save leaves the saved models
    // written, and one after the preprocessor dump leaves both artifacts
    ensures l.feedbackFile in disk.files && r.outcome == Raised(DumpPreprocessor) ==>
              r.disk == disk.(modelWrites := disk.modelWrites + 1)
    ensures l.feedbackFile in disk.files && r.outcome == Raised(ArchiveFeedback) ==>
              r.disk == disk.(modelWrites := disk.modelWrites + 1, preprocessorWrites := disk.preprocessorWrites + 1)
    ensures r.outcome.Retrained? ==>
              var archive := ArchiveName(l.feedbackFile, date);
              && archive in r.disk.files && r.disk.files[archive] == disk.files[l.feedbackFile]
              && (archive != l.feedbackFile ==> l.feedbackFile !in r.disk.files)
  {
    if l.feedbackFile !in disk.files || !Finished(fails, ReadFile) then RetrainRun(disk, Raised(ReadFile), None)
    else
      var rows := disk.files[l.feedbackFile];
      var y := Some(MapSeq(rows, TargetOf));
      if !Finished(fails, PrepareData) then RetrainRun(disk, Raised(PrepareData), None)
      else if !Finished(fails, TrainAll) then RetrainRun(disk, Raised(TrainAll), y)
      else if !Finished(fails, SaveModels) then RetrainRun(disk, Raised(SaveModels), y)
      else
        var saved := disk.(modelWrites := disk.modelWrites + 1);
        if !Finished(fails, DumpPreprocessor) then RetrainRun(saved, Raised(DumpPreprocessor), y)
        else
          var dumped := saved.(preprocessorWrites := saved.preprocessorWrites + 1);
          if !Finished(fails, ArchiveFeedback) then RetrainRun(dumped, Raised(ArchiveFeedback), y)
          else
            var archive := ArchiveName(l.feedbackFile, date);
            var renamed := (dumped.files - {l.feedbackFile})[archive := rows];
            RetrainRun(dumped.(files := renamed), Retrained(|rows|), y)
  }

  /** A failed attempt can be retried: the file it left in place still
      drives a successful run once the collaborators stop raising. */
  lemma RetryAfterFailure(l: Learner, disk: Disk, failing: Stage, date: string)
    requires l.feedbackFile in disk.files
    ensures var failed := RetrainModel(l, disk, Some(failing), date);
            && failed.outcome.Raised?
            && RetrainModel(l, failed.disk, None, date).outcome == Retrained(|disk.files[l.feedbackFile]|)
  {
  }

  /** For the default path (no `.` in the directory or the month) the archive
      name inserts `_archived_<date>` before the extension. */
  lemma DefaultArchiveName(dir: string, month: string, date: string)
    requires forall i :: 0 <= i < |dir| ==> dir[i] != '.'
    requires forall i :: 0 <= i < |month| ==> month[i] != '.'
    ensures ArchiveName(FeedbackPath(dir, month), date) == dir + "/feedback_" + month + "_archived_" + date + ".csv"
  {
    var stem := dir + "/feedback_" + month;
    assert FeedbackPath(dir, month) == stem + ".csv";
    forall i | 0 <= i < |stem| ensures !Text.OccursAt(".csv", stem + ".csv", i) {
      assert stem[i] != '.';
      assert (stem + ".csv")[i] == stem[i];
    }
    Text.ReplaceAllSuffix(stem, ".csv", "_archived_" + date + ".csv");
  }

  /** The in-memory list survives a retrain: the first feedback collected
      afterwards starts a new file holding every earlier record plus the new one. */
  lemma CollectAfterArchive(l: Learner, disk: Disk, date: string,
                            t: string, p: string, a: string, c: real, now: string)
    requires l.feedbackFile in disk.files
    requires ArchiveName(l.feedbackFile, date) != l.feedbackFile
    ensures var retrained := RetrainModel(l, disk, None, date);
            var next := CollectFeedback(l, retrained.disk, t, p, a, c, now);
            next.disk.files[l.feedbackFile] == l.feedbackData + [next.feedback]
  {
  }

  // ---------------------------------------------------------------------
  // Patterns and statistics
  // ---------------------------------------------------------------------

  datatype Patterns = Patterns(highConfidenceErrors: nat, falsePositives: nat, falseNegatives: nat, totalErrors: nat)

  predicate IsIncorrect(r: FeedbackRecord) { !r.correct }
  predicate PredictedFake(r: FeedbackRecord) { r.predictedLabel == "FAKE" }
  predicate PredictedReal(r: FeedbackRecord) { r.predictedLabel == "REAL" }
  predicate IsHighConfidence(r: FeedbackRecord) { r.confidence > HighConfidence }
  predicate IncorrectFake(r: FeedbackRecord) { !r.correct && r.predictedLabel == "FAKE" }
  predicate IncorrectReal(r: FeedbackRecord) { !r.correct && r.predictedLabel == "REAL" }
  predicate IncorrectHighConfidence(r: FeedbackRecord) { !r.correct && r.confidence > HighConfidence }

  /** `detect_new_patterns`: None stands for the empty list returned when
      there is no file or no misclassification; otherwise counts over the
      misclassified rows. */
  function DetectNewPatterns(l: Learner, disk: Disk): (r: Option<Patterns>)
    ensures r.None? <==> l.feedbackFile !in disk.files || Count(disk.files[l.feedbackFile], IsIncorrect) == 0
    ensures r.Some? ==> r.value.totalErrors == Count(disk.files[l.feedbackFile], IsIncorrect) > 0
    ensures r.Some? ==> r.value.falsePositives == Count(disk.files[l.feedbackFile], IncorrectFake)
    ensures r.Some? ==> r.value.falseNegatives == Count(disk.files[l.feedbackFile], IncorrectReal)
    ensures r.Some? ==> r.value.highConfidenceErrors == Count(disk.files[l.feedbackFile], IncorrectHighConfidence)
    ensures r.Some? ==> r.value.falsePositives + r.value.falseNegatives <= r.value.totalErrors
    ensures r.Some? ==> r.value.highConfidenceErrors <= r.value.totalErrors
  {
    match ReadFeedback(l, disk)
    case None => None
    case Some(rows) =>
      var incorrect := Filter(rows, IsIncorrect);
      if |incorrect| == 0 then None
      else
        CountOverFilter(rows, IsIncorrect, PredictedFake, IncorrectFake);
        CountOverFilter(rows, IsIncorrect, PredictedReal, IncorrectReal);
        CountOverFilter(rows, IsIncorrect, IsHighConfidence, IncorrectHighConfidence);
        CountDisjoint(incorrect, PredictedFake, PredictedReal);
        Some(Patterns(Count(incorrect, IsHighConfidence), Count(incorrect, PredictedFake),
                      Count(incorrect, PredictedReal), |incorrect|))
  }

  datatype LearningStats = LearningStats(totalFeedback: nat, accuracy: Option<real>, avgConfidence: Option<real>,
                                         falsePositives: nat, falseNegatives: nat, lastUpdated: Option<string>)

  predicate FalsePositive(r: FeedbackRecord) { r.predictedLabel == "FAKE" && r.actualLabel == "REAL" }
  predicate FalseNegative(r: FeedbackRecord) { r.predictedLabel == "REAL" && r.actualLabel == "FAKE" }

  /** The `confidence` column. */
  function ConfidenceOf(r: FeedbackRecord): real { r.confidence }

  /** The greatest string, as Python orders strings. */
  function MaxString(ss: seq<string>): (m: string)
    requires |ss| > 0
    ensures exists i :: 0 <= i < |ss| && ss[i] == m
    ensures forall i :: 0 <= i < |ss| ==> Text.LexLe(ss[i], m)
  {
    if |ss| == 1 then Text.LexReflexive(ss[0]); ss[0]
    else
      var rest := MaxString(ss[..|ss| - 1]);
      var last := ss[|ss| - 1];
      Text.LexTotal(rest, last);
      Text.LexReflexive(last);
      Text.LexReflexive(rest);
      if Text.LexLe(rest, last) then
        assert forall i :: 0 <= i < |ss| - 1 ==> Text.LexLe(ss[i], rest) && Text.LexLe(rest, last);
        LexTransitiveAll(ss[..|ss| - 1], rest, last);
        last
      else
        assert ss[..|ss| - 1][0] == ss[0];
        rest
  }

  lemma LexTransitiveAll(ss: seq<string>, mid: string, top: string)
    requires forall i :: 0 <= i < |ss| ==> Text.LexLe(ss[i], mid)
    requires Text.LexLe(mid, top)
    ensures forall i :: 0 <= i < |ss| ==> Text.LexLe(ss[i], top)
  {
    forall i | 0 <= i < |ss| ensures Text.LexLe(ss[i], top) {
      Text.LexTransitive(ss[i], mid, top);
    }
  }

  /** The `timestamp` column. */
  function TimestampOf(r: FeedbackRecord): string { r.timestamp }

  /** `get_learning_stats`: None without a file; otherwise the row count,
      the accuracy (within [0, 1]), the mean confidence, the two kinds of
      error and the latest timestamp. */
  function GetLearningStats(l: Learner, disk: Disk): (r: Option<LearningStats>)
    ensures r.None? <==> l.feedbackFile !in disk.files
    ensures r.Some? ==> r.value.totalFeedback == |disk.files[l.feedbackFile]|
    ensures r.Some? && r.value.accuracy.Some? ==> 0.0 <= r.value.accuracy.value <= 1.0
    ensures r.Some? ==> r.value.accuracy == Accuracy(disk.files[l.feedbackFile])
    ensures r.Some? ==> r.value.falsePositives + r.value.falseNegatives <= r.value.totalFeedback
    ensures r.Some? ==> r.value.falsePositives == Count(disk.files[l.feedbackFile], FalsePositive)
    ensures r.Some? ==> r.value.falseNegatives == Count(disk.files[l.feedbackFile], FalseNegative)
    ensures r.Some? ==> (r.value.lastUpdated.None? <==> r.value.totalFeedback == 0)
    ensures r.Some? && r.value.lastUpdated.Some? ==>
              forall i :: 0 <= i < r.value.totalFeedback ==>
                Text.LexLe(disk.files[l.feedbackFile][i].timestamp, r.value.lastUpdated.value)
    // the latest timestamp is one of the rows' own
    ensures r.Some? && r.value.lastUpdated.Some? ==>
              exists i :: 0 <= i < r.value.totalFeedback
                          && disk.files[l.feedbackFile][i].timestamp == r.value.lastUpdated.value
    // the mean confidence: None for no rows, otherwise the mean of the column
    ensures r.Some? ==> (r.value.avgConfidence.None? <==> r.value.totalFeedback == 0)
    ensures r.Some? ==> r.value.avgConfidence == Mean(MapSeq(disk.files[l.feedbackFile], ConfidenceOf))
  {
    match ReadFeedback(l, disk)
    case None => None
    case Some(rows) =>
      CountDisjoint(rows, FalsePositive, FalseNegative);
      Some(LearningStats(|rows|, Accuracy(rows), Mean(MapSeq(rows, ConfidenceOf)),
                         Count(rows, FalsePositive), Count(rows, FalseNegative),
                         if |rows| == 0 then None else Some(MaxString(MapSeq(rows, TimestampOf)))))
  }
}

=== FILE: label_generator.dfy ===
/** `SyntheticLabelGenerator`: six 0/1 fake-review indicators computed per
    row (one of them over the whole frame), their sum as a fake score, and
    the label "fake" when at least three indicators fire. The sentiment
    polarity of each text is an input. */
module LabelGenerator {
  import opened Common
  import Text

  /** One row of the sampled frame: text, star rating, sentiment polarity. */
  datatype Review = Review(text: string, rating: real, sentiment: real)

  const GenericPhrases: seq<string> := [
    "highly recommend", "best product", "worst purchase", "amazing product",
    "terrible experience", "love it", "hate it", "perfect", "awful", "exactly what i needed"
  ]

  /** Fake score at or above which a row is labelled fake. */
  const LabelThreshold: int := 3

  // ---------------------------------------------------------------------
  // Duplicates (the one frame-wide indicator)
  // ---------------------------------------------------------------------

  /** How many rows carry exactly this text. */
  function TextOccurrences(rows: seq<Review>, t: string): nat
  {
    if |rows| == 0 then 0 else Bit(rows[0].text == t) + TextOccurrences(rows[1..], t)
  }

  lemma {:induction false} TextOccurrencesAppend(a: seq<Review>, b: seq<Review>, t: string)
    ensures TextOccurrences(a + b, t) == TextOccurrences(a, t) + TextOccurrences(b, t)
  {
    if |a| > 0 {
      assert (a + b)[1..] == a[1..] + b;
      TextOccurrencesAppend(a[1..], b, t);
    } else {
      assert a + b == b;
    }
  }

  lemma {:induction false} TextOccurrencesPositive(rows: seq<Review>, t: string)
    ensures TextOccurrences(rows, t) > 0 <==> exists j :: 0 <= j < |rows| && rows[j].text == t
  {
    if |rows| > 0 {
      TextOccurrencesPositive(rows[1..], t);
      if rows[0].text != t {
        assert forall j :: 1 <= j < |rows| ==> rows[1..][j - 1] == rows[j];
      }
      if exists j :: 0 <= j < |rows[1..]| && rows[1..][j].text == t {
        var j :| 0 <= j < |rows[1..]| && rows[1..][j].text == t;
        assert rows[j + 1].text == t;
      }
    }
  }

  /** A text counts at least twice exactly when another row repeats it. */
  lemma DuplicateIffAnotherRow(rows: seq<Review>, i: int)
    requires 0 <= i < |rows|
    ensures TextOccurrences(rows, rows[i].text) >= 2
            <==> exists j :: 0 <= j < |rows| && j != i && rows[j].text == rows[i].text
  {
    var t := rows[i].text;
    var others := rows[..i] + rows[i + 1..];
    assert rows == rows[..i] + ([rows[i]] + rows[i + 1..]);
    TextOccurrencesAppend(rows[..i], [rows[i]] + rows[i + 1..], t);
    TextOccurrencesAppend([rows[i]], rows[i + 1..], t);
    TextOccurrencesAppend(rows[..i], rows[i + 1..], t);
    assert TextOccurrences([rows[i]], t) == 1 by {
      assert [rows[i]][1..] == [];
    }
    TextOccurrencesPositive(others, t);
    if exists j :: 0 <= j < |rows| && j != i && rows[j].text == t {
      var j :| 0 <= j < |rows| && j != i && rows[j].text == t;
      if j < i {
        assert others[j] == rows[j];
      } else {
        assert others[j - 1] == rows[j];
      }
    }
    if exists k :: 0 <= k < |others| && others[k].text == t {
      var k :| 0 <= k < |others| && others[k].text == t;
      if k < i {
        assert others[k] == rows[k];
      } else {
        assert others[k] == rows[k + 1];
      }
    }
  }

  /** The flag of row `i`: set exactly when another row has the same text. */
  function DuplicateFlag(rows: seq<Review>, i: int): (flag: int)
    requires 0 <= i < |rows|
    ensures 0 <= flag <= 1
    ensures flag == 1 <==> exists j :: 0 <= j < |rows| && j != i && rows[j].text == rows[i].text
  {
    DuplicateIffAnotherRow(rows, i);
    Bit(TextOccurrences(rows, rows[i].text) >= 2)
  }

  /** `detect_duplicate_reviews`: every copy of a repeated text is marked. */
  function DuplicateFlags(rows: seq<Review>): (flags: seq<int>)
    ensures |flags| == |rows|
    ensures forall i :: 0 <= i < |rows| ==> 0 <= flags[i] <= 1
    ensures forall i :: 0 <= i < |rows| ==>
              (flags[i] == 1 <==> exists j :: 0 <= j < |rows| && j != i && rows[j].text == rows[i].text)
  {
    seq(|rows|, i requires 0 <= i < |rows| => DuplicateFlag(rows, i))
  }

  // ---------------------------------------------------------------------
  // Per-row indicators
  // ---------------------------------------------------------------------

  /** A high rating with clearly negative sentiment, or a low rating with
      clearly positive sentiment. */
  predicate RatingMismatch(rating: real, sentiment: real)
  {
    (rating >= 4.0 && sentiment < -0.2) || (rating <= 2.0 && sentiment > 0.2)
  }

  /** Fewer than five words with an extreme rating, or more than 200 words. */
  predicate SuspiciousShort(wordCount: nat, rating: real)
  {
    (wordCount < 5 && (rating == 5.0 || rating == 1.0)) || wordCount > 200
  }

  /** Only a clear sentiment on a clearly high or low rating is a mismatch:
      a rating strictly between 2 and 4, or a polarity within [-0.2, 0.2],
      never is. */
  lemma MismatchNeedsExtremes(rating: real, sentiment: real)
    ensures 2.0 < rating < 4.0 ==> !RatingMismatch(rating, sentiment)
    ensures -0.2 <= sentiment <= 0.2 ==> !RatingMismatch(rating, sentiment)
    ensures RatingMismatch(rating, sentiment) ==> (rating >= 4.0 <==> sentiment < 0.0)
  {
  }

  /** For a rating other than 1 or 5 only length over 200 words is suspicious,
      and more than 200 words is suspicious whatever the rating. */
  lemma SuspiciousShortCases(wordCount: nat, rating: real)
    ensures rating != 1.0 && rating != 5.0 ==> (SuspiciousShort(wordCount, rating) <==> wordCount > 200)
    ensures wordCount > 200 ==> SuspiciousShort(wordCount, rating)
    ensures 5 <= wordCount <= 200 ==> !SuspiciousShort(wordCount, rating)
  {
  }

  predicate HasGeneric(text: string)
  {
    Text.ContainsAny(Text.Lower(text), GenericPhrases)
  }

  /** The phrase check ignores case: "PERFECT" in capitals is generic. */
  lemma ShoutedPhraseIsGeneric(text: string)
    requires Text.IsSubstring("PERFECT", text)
    ensures HasGeneric(text)
  {
    var i := Text.SubstringOccurs("PERFECT", text);
    var low := Text.Lower(text);
    assert low[i..i + 7] == Text.Lower(text[i..i + 7]);
    assert Text.Lower("PERFECT") == "perfect";
    assert GenericPhrases[7] == "perfect";
    Text.OccursIsSubstring(GenericPhrases[7], low, i);
  }

  function DistinctWords(ws: seq<string>): set<string>
  {
    set w | w in ws
  }

  lemma {:induction false} DistinctWordsAtMost(ws: seq<string>)
    ensures |DistinctWords(ws)| <= |ws|
  {
    if |ws| > 0 {
      var init := ws[..|ws| - 1];
      DistinctWordsAtMost(init);
      assert DistinctWords(ws) == DistinctWords(init) + {ws[|ws| - 1]};
    }
  }

  /** Without a repeated word, there are as many distinct words as words. */
  lemma {:induction false} DistinctWordsAllDifferent(ws: seq<string>)
    requires forall i, j :: 0 <= i < j < |ws| ==> ws[i] != ws[j]
    ensures |DistinctWords(ws)| == |ws|
  {
    if |ws| > 0 {
      var init := ws[..|ws| - 1];
      DistinctWordsAllDifferent(init);
      assert DistinctWords(ws) == DistinctWords(init) + {ws[|ws| - 1]};
      assert ws[|ws| - 1] !in DistinctWords(init);
    }
  }

  /** Fewer distinct lower-cased words than half the word count. */
  predicate Repetitive(text: string)
  {
    (|DistinctWords(Text.Words(Text.Lower(text)))| as real) < (|Text.Words(text)| as real) * 0.5
  }

  /** A repetitive text necessarily repeats some word (up to case). */
  lemma RepetitiveRepeatsAWord(text: string)
    requires Repetitive(text)
    ensures var ws := Text.Words(Text.Lower(text));
            exists i, j :: 0 <= i < j < |ws| && ws[i] == ws[j]
  {
    var ws := Text.Words(Text.Lower(text));
    Text.WordsOfLower(text);
    if forall i, j :: 0 <= i < j < |ws| ==> ws[i] != ws[j] {
      DistinctWordsAllDifferent(ws);
      assert false;
    }
  }

  function UpperCount(text: string): nat
  {
    Count(text, Text.IsUpper)
  }

  /** More than 30% of the code points are upper-case letters. */
  predicate ExcessiveCaps(text: string)
  {
    (UpperCount(text) as real) > (|text| as real) * 0.3
  }

  /** An empty text fires neither text-shape indicator. */
  lemma EmptyTextIndicators()
    ensures !Repetitive("") && !ExcessiveCaps("")
  {
  }

  /** A non-empty text written entirely in capitals fires the caps indicator. */
  lemma AllCapitalsIsExcessive(text: string)
    requires |text| > 0
    requires forall i :: 0 <= i < |text| ==> Text.IsUpper(text[i])
    ensures ExcessiveCaps(text)
  {
    CountAll(text, Text.IsUpper);
  }

  // ---------------------------------------------------------------------
  // Score and label
  // ---------------------------------------------------------------------

  datatype Indicators = Indicators(isDuplicate: int, ratingMismatch: int, suspiciousShort: int,
                                   excessiveCaps: int, hasGeneric: int, repetitive: int)

  predicate IsIndicatorSet(ind: Indicators)
  {
    && 0 <= ind.isDuplicate <= 1 && 0 <= ind.ratingMismatch <= 1 && 0 <= ind.suspiciousShort <= 1
    && 0 <= ind.excessiveCaps <= 1 && 0 <= ind.hasGeneric <= 1 && 0 <= ind.repetitive <= 1
  }

  function FakeScore(ind: Indicators): (score: int)
    requires IsIndicatorSet(ind)
    ensures 0 <= score <= 6
  {
    ind.isDuplicate + ind.ratingMismatch + ind.suspiciousShort + ind.excessiveCaps + ind.hasGeneric + ind.repetitive
  }

  function Label(ind: Indicators): (fake: int)
    requires IsIndicatorSet(ind)
    ensures 0 <= fake <= 1
    ensures fake == 1 <==> FakeScore(ind) >= LabelThreshold
  {
    Bit(FakeScore(ind) >= LabelThreshold)
  }

  /** Indicator-wise at most. */
  predicate Below(a: Indicators, b: Indicators)
  {
    && a.isDuplicate <= b.isDuplicate && a.ratingMismatch <= b.ratingMismatch
    && a.suspiciousShort <= b.suspiciousShort && a.excessiveCaps <= b.excessiveCaps
    && a.hasGeneric <= b.hasGeneric && a.repetitive <= b.repetitive
  }

  /** Turning indicators on never turns a fake label back to real. */
  lemma LabelMonotone(a: Indicators, b: Indicators)
    requires IsIndicatorSet(a) && IsIndicatorSet(b) && Below(a, b)
    ensures FakeScore(a) <= FakeScore(b)
    ensures Label(a) <= Label(b)
  {
  }

  /** A labelled row: the input and every column the generator adds. */
  datatype LabelledRow = LabelledRow(review: Review, wordCount: nat, charCount: nat,
                                     indicators: Indicators, fakeScore: int, isFake: int)

  /** The deterministic part of `generate_labels` (after sampling): the four
      detectors, the score and the label, row by row in the input order. */
  function GenerateLabels(rows: seq<Review>): (out: seq<LabelledRow>)
    ensures |out| == |rows|
    ensures forall i :: 0 <= i < |rows| ==> out[i].review == rows[i]
    ensures forall i :: 0 <= i < |rows| ==> IsIndicatorSet(out[i].indicators)
    ensures forall i :: 0 <= i < |rows| ==>
              && out[i].wordCount == |Text.Words(rows[i].text)|
              && out[i].charCount == |rows[i].text|
              && (out[i].indicators.isDuplicate == 1 <==>
                    exists j :: 0 <= j < |rows| && j != i && rows[j].text == rows[i].text)
              && (out[i].indicators.ratingMismatch == 1 <==> RatingMismatch(rows[i].rating, rows[i].sentiment))
              && (out[i].indicators.suspiciousShort == 1 <==> SuspiciousShort(out[i].wordCount, rows[i].rating))
              && (out[i].indicators.hasGeneric == 1 <==> HasGeneric(rows[i].text))
              && (out[i].indicators.repetitive == 1 <==> Repetitive(rows[i].text))
              && (out[i].indicators.excessiveCaps == 1 <==> ExcessiveCaps(rows[i].text))
    ensures forall i :: 0 <= i < |rows| ==>
              0 <= out[i].fakeScore <= 6 && (out[i].isFake == 1 <==> out[i].fakeScore >= LabelThreshold)
              && 0 <= out[i].isFake <= 1
    // the score and the label are those of the row's own six indicators
    ensures forall i :: 0 <= i < |rows| ==>
              IsIndicatorSet(out[i].indicators)
              && out[i].fakeScore == FakeScore(out[i].indicators) && out[i].isFake == Label(out[i].indicators)
  {
    var dup := DuplicateFlags(rows);
    seq(|rows|, i requires 0 <= i < |rows| =>
      var r := rows[i];
      var wc := |Text.Words(r.text)|;
      var ind := Indicators(dup[i], Bit(RatingMismatch(r.rating, r.sentiment)), Bit(SuspiciousShort(wc, r.rating)),
                            Bit(ExcessiveCaps(r.text)), Bit(HasGeneric(r.text)), Bit(Repetitive(r.text)));
      LabelledRow(r, wc, |r.text|, ind, FakeScore(ind), Label(ind)))
  }

  predicate IsFakeRow(r: LabelledRow) { r.isFake == 1 }
  predicate IsRealRow(r: LabelledRow) { r.isFake == 0 }

  /** The summary: fake is the sum of the labels, real is the rest. */
  function LabelDistribution(out: seq<LabelledRow>): (counts: (nat, int))
  {
    var fake := Count(out, IsFakeRow);
    (fake, |out| - fake)
  }

  /** The real count, computed as "rows minus fakes", is the number of rows
      labelled 0, so the two counts add up to the number of rows. */
  lemma DistributionCoversRows(rows: seq<Review>)
    ensures var out := GenerateLabels(rows);
            var counts := LabelDistribution(out);
            && counts.0 + counts.1 == |rows|
            && counts.1 == Count(out, IsRealRow)
  {
    var out := GenerateLabels(rows);
    CountPartition(out, IsFakeRow, IsRealRow);
  }
}

=== FILE: monitoring.dfy ===
/** `ModelMonitor`: an append-only list of prediction observations,
    aggregate statistics computed from it on demand, and a drift check on
    the observed share of FAKE predictions, guarded by a minimum sample
    count. Statistics and drift are functions of the list and leave it as
    it is. */
module Monitoring {
  import opened Common

  datatype Observation = Observation(timestamp: string, confidence: real, prediction: string)

  datatype Monitor = Monitor(predictions: seq<Observation>)

  /** Observations needed before the drift check gives an answer. */
  const MinDriftSamples: nat := 100
  /** Confidence below which a prediction counts as low-confidence. */
  const LowConfidence: real := 0.7
  const DefaultExpectedFakeRatio: real := 0.15
  const DefaultDriftThreshold: real := 0.1

  function Init(): (m: Monitor)
    ensures |m.predictions| == 0
  {
    Monitor([])
  }

  /** `track_prediction`; `now` is the ISO timestamp the clock would give. */
  function Track(m: Monitor, confidence: real, prediction: string, now: string): (m': Monitor)
    ensures |m'.predictions| == |m.predictions| + 1
    ensures m'.predictions[..|m.predictions|] == m.predictions
    ensures m'.predictions[|m.predictions|] == Observation(now, confidence, prediction)
  {
    Monitor(m.predictions + [Observation(now, confidence, prediction)])
  }

  predicate IsFake(o: Observation) { o.prediction == "FAKE" }
  predicate IsReal(o: Observation) { o.prediction == "REAL" }
  predicate IsLowConfidence(o: Observation) { o.confidence < LowConfidence }

  /** The `confidence` column. */
  function ConfidenceOf(o: Observation): real { o.confidence }

  function MinConfidence(obs: seq<Observation>): (m: real)
    requires |obs| > 0
    ensures forall i :: 0 <= i < |obs| ==> m <= obs[i].confidence
    ensures exists i :: 0 <= i < |obs| && m == obs[i].confidence
  {
    if |obs| == 1 then obs[0].confidence
    else
      var rest := MinConfidence(obs[..|obs| - 1]);
      var last := obs[|obs| - 1].confidence;
      if last < rest then last else rest
  }

  function MaxConfidence(obs: seq<Observation>): (m: real)
    requires |obs| > 0
    ensures forall i :: 0 <= i < |obs| ==> obs[i].confidence <= m
    ensures exists i :: 0 <= i < |obs| && m == obs[i].confidence
  {
    if |obs| == 1 then obs[0].confidence
    else
      var rest := MaxConfidence(obs[..|obs| - 1]);
      var last := obs[|obs| - 1].confidence;
      if last > rest then last else rest
  }

  datatype MonitorStats = MonitorStats(totalPredictions: nat, fakeCount: nat, realCount: nat,
                                       avgConfidence: real, minConfidence: real, maxConfidence: real,
                                       lowConfidenceCount: nat)

  /** `get_statistics`: None exactly when nothing was tracked; otherwise the
      counts by label, the mean, minimum and maximum confidence, and the
      number of low-confidence predictions. */
  function GetStatistics(m: Monitor): (r: Option<MonitorStats>)
    ensures r.None? <==> |m.predictions| == 0
    ensures r.Some? ==> IsStatisticsOf(r.value, m.predictions)
  {
    if |m.predictions| == 0 then None else Some(Statistics(m.predictions))
  }

  /** What the summary of a non-empty list of observations states about it. */
  predicate IsStatisticsOf(st: MonitorStats, obs: seq<Observation>)
  {
    && st.totalPredictions == |obs|
    && st.fakeCount == Count(obs, IsFake)
    && st.realCount == Count(obs, IsReal)
    && st.fakeCount + st.realCount <= st.totalPredictions
    && ((forall i :: 0 <= i < |obs| ==> IsFake(obs[i]) || IsReal(obs[i]))
        ==> st.fakeCount + st.realCount == st.totalPredictions)
    && st.lowConfidenceCount == Count(obs, IsLowConfidence)
    && st.lowConfidenceCount <= st.totalPredictions
    // the extremes bound every confidence and are attained by some observation
    && (forall i :: 0 <= i < |obs| ==> st.minConfidence <= obs[i].confidence <= st.maxConfidence)
    && (exists i :: 0 <= i < |obs| && st.minConfidence == obs[i].confidence)
    && (exists i :: 0 <= i < |obs| && st.maxConfidence == obs[i].confidence)
    // the average is the mean of the confidences, so it lies between the extremes
    && Mean(MapSeq(obs, ConfidenceOf)) == Some(st.avgConfidence)
    && st.minConfidence <= st.avgConfidence <= st.maxConfidence
  }

  /** The summary of a non-empty list of observations. */
  function Statistics(obs: seq<Observation>): (st: MonitorStats)
    requires |obs| > 0
    ensures IsStatisticsOf(st, obs)
  {
    var lo := MinConfidence(obs);
    var hi := MaxConfidence(obs);
    var cs := MapSeq(obs, ConfidenceOf);
    var avg := Mean(cs).value;
    CountDisjoint(obs, IsFake, IsReal);
    CountPartitionWhenLabelled(obs);
    MeanBetween(cs, lo, hi);
    MonitorStats(|obs|, Count(obs, IsFake), Count(obs, IsReal), avg, lo, hi, Count(obs, IsLowConfidence))
  }

  lemma CountPartitionWhenLabelled(obs: seq<Observation>)
    ensures (forall i :: 0 <= i < |obs| ==> IsFake(obs[i]) || IsReal(obs[i]))
            ==> Count(obs, IsFake) + Count(obs, IsReal) == |obs|
  {
    if forall i :: 0 <= i < |obs| ==> IsFake(obs[i]) || IsReal(obs[i]) {
      CountPartition(obs, IsFake, IsReal);
    }
  }

  /** Tracking one prediction moves each statistic by exactly that
      observation's contribution. */
  lemma TrackUpdatesStatistics(m: Monitor, confidence: real, prediction: string, now: string)
    requires |m.predictions| > 0
    ensures var before := GetStatistics(m).value;
            var after := GetStatistics(Track(m, confidence, prediction, now)).value;
            && after.totalPredictions == before.totalPredictions + 1
            && after.fakeCount == before.fakeCount + (if prediction == "FAKE" then 1 else 0)
            && after.realCount == before.realCount + (if prediction == "REAL" then 1 else 0)
            && after.lowConfidenceCount == before.lowConfidenceCount + (if confidence < LowConfidence then 1 else 0)
            && after.minConfidence == (if confidence < before.minConfidence then confidence else before.minConfidence)
            && after.maxConfidence == (if confidence > before.maxConfidence then confidence else before.maxConfidence)
  {
    var obs := m.predictions;
    var obs' := Track(m, confidence, prediction, now).predictions;
    assert obs'[..|obs'| - 1] == obs;
  }

  // ---------------------------------------------------------------------
  // Drift
  // ---------------------------------------------------------------------

  /** The drift message: fixed text, or the measured deviation (whose
      percentage formatting is not modelled). */
  datatype DriftMessage = InsufficientData | DriftDetected(deviation: real) | NoDrift

  /** Observed share of FAKE predictions. */
  function FakeRatio(m: Monitor): real
    requires |m.predictions| > 0
  {
    (Count(m.predictions, IsFake) as real) / (|m.predictions| as real)
  }

  /** `check_drift`: below the minimum sample count the answer is always
      "insufficient data"; above it, drift is the strict excess of
      |observed FAKE share - expected share| over the threshold. */
  function CheckDrift(m: Monitor, expectedFakeRatio: real, threshold: real): (r: (bool, DriftMessage))
    ensures |m.predictions| < MinDriftSamples ==> r == (false, InsufficientData)
    ensures |m.predictions| >= MinDriftSamples ==>
              (r.0 <==> Abs(FakeRatio(m) - expectedFakeRatio) > threshold)
    ensures |m.predictions| >= MinDriftSamples ==>
              r.1 == (if r.0 then DriftDetected(Abs(FakeRatio(m) - expectedFakeRatio)) else NoDrift)
  {
    var stats := GetStatistics(m);
    if stats.None? || stats.value.totalPredictions < MinDriftSamples then (false, InsufficientData)
    else
      var actual := (stats.value.fakeCount as real) / (stats.value.totalPredictions as real);
      var drift := Abs(actual - expectedFakeRatio);
      if drift > threshold then (true, DriftDetected(drift)) else (false, NoDrift)
  }

  /** With 100 observations of which 30 are FAKE and the default baseline
      (0.15 expected, 0.10 tolerance), the deviation 0.15 is reported as drift. */
  lemma DriftAtThirtyPercent(m: Monitor)
    requires |m.predictions| == 100 && Count(m.predictions, IsFake) == 30
    ensures CheckDrift(m, DefaultExpectedFakeRatio, DefaultDriftThreshold) == (true, DriftDetected(0.15))
  {
  }

  /** Deviation exactly at the threshold, in either direction, is not drift. */
  lemma DriftBoundaryIsNoDrift(m: Monitor, expectedFakeRatio: real)
    requires |m.predictions| >= MinDriftSamples
    ensures CheckDrift(m, expectedFakeRatio, Abs(FakeRatio(m) - expectedFakeRatio)) == (false, NoDrift)
  {
  }
}

=== FILE: text.dfy ===
/** String operations the core borrows from Python's `str`: ordering,
    substring search (`in`), `lower()`, `isupper()`, `split()` and
    `replace()`. Strings are sequences of Unicode code points. */
module Text {

  // ---------------------------------------------------------------------
  // Ordering: Python compares strings code point by code point, and a
  // proper prefix sorts first.
  // ---------------------------------------------------------------------

  predicate LexLe(a: string, b: string)
    decreases |a|
  {
    |a| == 0 || (|b| > 0 && (a[0] < b[0] || (a[0] == b[0] && LexLe(a[1..], b[1..]))))
  }

  lemma {:induction false} LexReflexive(a: string)
    ensures LexLe(a, a)
    decreases |a|
  {
    if |a| > 0 {
      LexReflexive(a[1..]);
    }
  }

  lemma {:induction false} LexTotal(a: string, b: string)
    ensures LexLe(a, b) || LexLe(b, a)
    decreases |a|
  {
    if |a| > 0 && |b| > 0 && a[0] == b[0] {
      LexTotal(a[1..], b[1..]);
    }
  }

  lemma {:induction false} LexTransitive(a: string, b: string, c: string)
    requires LexLe(a, b) && LexLe(b, c)
    ensures LexLe(a, c)
    decreases |a|
  {
    if |a| > 0 && a[0] == b[0] && b[0] == c[0] {
      LexTransitive(a[1..], b[1..], c[1..]);
    }
  }

  lemma {:induction false} LexAntisymmetric(a: string, b: string)
    requires LexLe(a, b) && LexLe(b, a)
    ensures a == b
    decreases |a|
  {
    if |a| > 0 {
      LexAntisymmetric(a[1..], b[1..]);
      assert a == [a[0]] + a[1..];
      assert b == [b[0]] + b[1..];
    }
  }

  // ---------------------------------------------------------------------
  // Substring search: Python's `needle in haystack`.
  // ---------------------------------------------------------------------

  /** `needle` occurs in `hay` starting at position `i`. */
  predicate OccursAt(needle: string, hay: string, i: int)
  {
    0 <= i && i + |needle| <= |hay| && hay[i..i + |needle|] == needle
  }

  /** The scanning definition: a prefix here, or an occurrence further on. */
  predicate IsSubstring(needle: string, hay: string)
    decreases |hay|
  {
    needle <= hay || (|hay| > 0 && IsSubstring(needle, hay[1..]))
  }

  /** Every occurrence is found by the scan. */
  lemma {:induction false} OccursIsSubstring(needle: string, hay: string, i: int)
    requires OccursAt(needle, hay, i)
    ensures IsSubstring(needle, hay)
    decreases i
  {
    if i > 0 {
      assert hay[1..][i - 1..i - 1 + |needle|] == hay[i..i + |needle|];
      OccursIsSubstring(needle, hay[1..], i - 1);
    } else {
      assert needle <= hay;
    }
  }

  /** The scan finds the needle only where it occurs. */
  lemma {:induction false} SubstringOccurs(needle: string, hay: string) returns (i: int)
    requires IsSubstring(needle, hay)
    ensures OccursAt(needle, hay, i)
    decreases |hay|
  {
    if needle <= hay {
      i := 0;
    } else {
      var j := SubstringOccurs(needle, hay[1..]);
      assert hay[j + 1..j + 1 + |needle|] == hay[1..][j..j + |needle|];
      i := j + 1;
    }
  }

  /** Python's `any(p in text for p in patterns)`. */
  predicate ContainsAny(text: string, patterns: seq<string>)
  {
    exists k :: 0 <= k < |patterns| && IsSubstring(patterns[k], text)
  }

  // ---------------------------------------------------------------------
  // Case: `lower()` and `isupper()`.
  // ---------------------------------------------------------------------

  /** Lower-cases ASCII letters and the KELVIN SIGN (U+212A), the one
      non-ASCII code point whose lower case is an ASCII letter. */
  function LowerChar(c: char): (d: char)
    ensures 'A' <= c <= 'Z' ==> d as int == c as int + 32
    ensures !('A' <= c <= 'Z') && c as int != 0x212A ==> d == c
  {
    if 'A' <= c <= 'Z' then (c as int + 32) as char
    else if c as int == 0x212A then 'k'
    else c
  }

  function Lower(s: string): (r: string)
    ensures |r| == |s|
    ensures forall i :: 0 <= i < |s| ==> r[i] == LowerChar(s[i])
  {
    seq(|s|, i requires 0 <= i < |s| => LowerChar(s[i]))
  }

  predicate IsUpper(c: char)
  {
    'A' <= c <= 'Z'
  }

  // ---------------------------------------------------------------------
  // Words: Python's `split()` with no separator.
  // ---------------------------------------------------------------------

  /** The code points `str.split()` treats as separators. */
  predicate IsSpace(c: char)
  {
    var n := c as int;
    n == 0x20 || (0x09 <= n <= 0x0D) || (0x1C <= n <= 0x1F) || n == 0x85 || n == 0xA0
    || n == 0x1680 || (0x2000 <= n <= 0x200A) || n == 0x2028 || n == 0x2029
    || n == 0x202F || n == 0x205F || n == 0x3000
  }

  /** Lower-casing never creates or removes a separator. */
  lemma LowerKeepsSpace(c: char)
    ensures IsSpace(LowerChar(c)) <==> IsSpace(c)
  {
  }

  /** Length of the longest prefix of `s` without a separator. */
  function TokenLength(s: string): (k: nat)
    ensures k <= |s|
    ensures forall i :: 0 <= i < k ==> !IsSpace(s[i])
    ensures k < |s| ==> IsSpace(s[k])
  {
    if |s| == 0 || IsSpace(s[0]) then 0 else 1 + TokenLength(s[1..])
  }

  /** The maximal runs of non-separator code points, in order. */
  function Words(s: string): (ws: seq<string>)
    ensures forall k :: 0 <= k < |ws| ==> |ws[k]| > 0
    ensures forall k, i :: 0 <= k < |ws| && 0 <= i < |ws[k]| ==> !IsSpace(ws[k][i])
    decreases |s|
  {
    if |s| == 0 then []
    else if IsSpace(s[0]) then Words(s[1..])
    else
      var n := TokenLength(s);
      [s[..n]] + Words(s[n..])
  }

  lemma {:induction false} TokenLengthOfLower(s: string)
    ensures TokenLength(Lower(s)) == TokenLength(s)
  {
    if |s| > 0 && !IsSpace(s[0]) {
      LowerKeepsSpace(s[0]);
      assert Lower(s)[1..] == Lower(s[1..]);
      TokenLengthOfLower(s[1..]);
    } else if |s| > 0 {
      LowerKeepsSpace(s[0]);
    }
  }

  /** Splitting the lower-cased text yields the lower-cased words, so the
      word count does not depend on case. */
  lemma {:induction false} WordsOfLower(s: string)
    ensures |Words(Lower(s))| == |Words(s)|
    ensures forall k :: 0 <= k < |Words(s)| ==> Words(Lower(s))[k] == Lower(Words(s)[k])
    decreases |s|
  {
    if |s| > 0 {
      LowerKeepsSpace(s[0]);
      if IsSpace(s[0]) {
        assert Lower(s)[1..] == Lower(s[1..]);
        WordsOfLower(s[1..]);
      } else {
        var n := TokenLength(s);
        TokenLengthOfLower(s);
        assert Lower(s)[..n] == Lower(s[..n]);
        assert Lower(s)[n..] == Lower(s[n..]);
        WordsOfLower(s[n..]);
      }
    }
  }

  // ---------------------------------------------------------------------
  // Replacement: Python's `s.replace(pat, rep)`, every non-overlapping
  // occurrence, scanning left to right.
  // ---------------------------------------------------------------------

  function ReplaceAll(s: string, pat: string, rep: string): string
    requires |pat| > 0
    decreases |s|
  {
    if |s| < |pat| then s
    else if s[..|pat|] == pat then rep + ReplaceAll(s[|pat|..], pat, rep)
    else [s[0]] + ReplaceAll(s[1..], pat, rep)
  }

  /** When the pattern occurs only as the suffix, only the suffix is replaced. */
  lemma {:induction false} ReplaceAllSuffix(stem: string, pat: string, rep: string)
    requires |pat| > 0
    requires forall i :: 0 <= i < |stem| ==> !OccursAt(pat, stem + pat, i)
    ensures ReplaceAll(stem + pat, pat, rep) == stem + rep
    decreases |stem|
  {
    var s := stem + pat;
    if |stem| == 0 {
      assert s == pat;
      assert s[|pat|..] == [];
    } else {
      assert !OccursAt(pat, s, 0);
      assert s[..|pat|] != pat;
      assert s[1..] == stem[1..] + pat;
      forall i | 0 <= i < |stem[1..]| ensures !OccursAt(pat, stem[1..] + pat, i) {
        assert s[1..][i..i + |pat|] == s[i + 1..i + 1 + |pat|];
        assert !OccursAt(pat, s, i + 1);
      }
      ReplaceAllSuffix(stem[1..], pat, rep);
      assert stem + rep == [stem[0]] + (stem[1..] + rep);
    }
  }
}

=== FILE: validation.dfy ===
/** `InputValidator` and the counter behind the `rate_limit` decorator: an
    ordered chain of checks on one review text (the first failure's message
    is returned), the same chain over a batch, and a per-client request
    counter that admits a request while the client is under its limit. */
module Validation {
  import opened Common
  import Text

  /** A value from the request body: a string, or any other JSON value. */
  datatype TextInput = Str(s: string) | NotAString

  /** The `reviews` value of a batch request: a list, or anything else. */
  datatype BatchInput = List(items: seq<TextInput>) | NotAList

  const MinLength: nat := 5
  const MaxLength: nat := 5000
  const MaxBatch: nat := 100
  const DangerousPatterns: seq<string> := ["<script", "javascript:", "onerror=", "onclick="]

  const Valid: string := "Valid"
  const MsgNotText: string := "Review text must be a non-empty string"
  const MsgTooShort: string := "Review text too short (minimum 5 characters)"
  const MsgTooLong: string := "Review text too long (maximum 5000 characters)"
  const MsgDangerous: string := "Invalid characters detected"
  const MsgNotList: string := "Reviews must be a list"
  const MsgEmptyList: string := "Reviews list cannot be empty"
  const MsgTooMany: string := "Maximum 100 reviews per batch"
  const InvalidPrefix: string := "Invalid review: "

  /** Some dangerous pattern occurs in the lower-cased text. */
  predicate Dangerous(s: string)
  {
    Text.ContainsAny(Text.Lower(s), DangerousPatterns)
  }

  /** `validate_review_text`. */
  function ValidateReviewText(t: TextInput): (r: (bool, string))
    ensures r.0 <==> r == (true, Valid)
    ensures r.0 <==> t.Str? && MinLength <= |t.s| <= MaxLength && !Dangerous(t.s)
    ensures t.NotAString? || t.s == [] ==> r == (false, MsgNotText)
    ensures t.Str? && 0 < |t.s| < MinLength ==> r == (false, MsgTooShort)
    ensures t.Str? && |t.s| > MaxLength ==> r == (false, MsgTooLong)
    ensures t.Str? && MinLength <= |t.s| <= MaxLength && Dangerous(t.s) ==> r == (false, MsgDangerous)
  {
    if t.NotAString? || |t.s| == 0 then (false, MsgNotText)
    else if |t.s| < MinLength then (false, MsgTooShort)
    else if |t.s| > MaxLength then (false, MsgTooLong)
    else if Dangerous(t.s) then (false, MsgDangerous)
    else (true, Valid)
  }

  /** The checks as an ordered list, each with its message. */
  datatype Check = NonEmptyString | LongEnough | ShortEnough | NoDangerousPattern

  const Checks: seq<Check> := [NonEmptyString, LongEnough, ShortEnough, NoDangerousPattern]

  function Message(c: Check): string
  {
    match c
    case NonEmptyString => MsgNotText
    case LongEnough => MsgTooShort
    case ShortEnough => MsgTooLong
    case NoDangerousPattern => MsgDangerous
  }

  /** Whether a single check, taken on its own, accepts the input. */
  predicate Passes(c: Check, t: TextInput)
  {
    match c
    case NonEmptyString => t.Str? && |t.s| > 0
    case LongEnough => t.Str? && |t.s| >= MinLength
    case ShortEnough => t.Str? && |t.s| <= MaxLength
    case NoDangerousPattern => t.Str? && !Dangerous(t.s)
  }

  function FirstFailure(checks: seq<Check>, t: TextInput): Option<Check>
  {
    if |checks| == 0 then None
    else if !Passes(checks[0], t) then Some(checks[0])
    else FirstFailure(checks[1..], t)
  }

  lemma {:induction false} FirstFailureNone(checks: seq<Check>, t: TextInput)
    ensures FirstFailure(checks, t).None? <==> forall k :: 0 <= k < |checks| ==> Passes(checks[k], t)
  {
    if |checks| > 0 {
      FirstFailureNone(checks[1..], t);
      assert forall k :: 1 <= k < |checks| ==> checks[1..][k - 1] == checks[k];
    }
  }

  /** The coded cascade is the ordered chain: it reports the message of the
      first check that fails, and is (true, "Valid") exactly when every
      check passes. */
  lemma ValidateIsFirstFailure(t: TextInput)
    ensures ValidateReviewText(t) ==
              (if FirstFailure(Checks, t).None? then (true, Valid)
               else (false, Message(FirstFailure(Checks, t).value)))
    ensures ValidateReviewText(t).0 <==> forall k :: 0 <= k < |Checks| ==> Passes(Checks[k], t)
  {
    var c0 := Checks;
    var c1, c2, c3 := c0[1..], c0[2..], c0[3..];
    assert c1[1..] == c2 && c2[1..] == c3 && c3[1..] == [];
    assert c0[0] == NonEmptyString && c1[0] == LongEnough && c2[0] == ShortEnough;
    assert c3 == [NoDangerousPattern];
    assert FirstFailure(c3, t) == if !Passes(NoDangerousPattern, t) then Some(NoDangerousPattern) else FirstFailure([], t);
    assert FirstFailure(c2, t) == if !Passes(ShortEnough, t) then Some(ShortEnough) else FirstFailure(c3, t);
    assert FirstFailure(c1, t) == if !Passes(LongEnough, t) then Some(LongEnough) else FirstFailure(c2, t);
    assert FirstFailure(c0, t) == if !Passes(NonEmptyString, t) then Some(NonEmptyString) else FirstFailure(c1, t);
    FirstFailureNone(Checks, t);
  }

  lemma CapitalTagLowers(s: string, i: int)
    requires Text.OccursAt("<SCRIPT", s, i)
    ensures Text.OccursAt("<script", Text.Lower(s), i)
  {
    var low := Text.Lower(s);
    assert low[i..i + 7] == Text.Lower(s[i..i + 7]);
    assert Text.Lower("<SCRIPT") == "<script";
  }

  lemma LowerTagDangerous(s: string, i: int)
    requires Text.OccursAt("<script", Text.Lower(s), i)
    ensures Dangerous(s)
  {
    Text.OccursIsSubstring(DangerousPatterns[0], Text.Lower(s), i);
  }

  /** Case does not help an attacker: a pattern written in capitals is caught. */
  lemma ScriptTagInCapitalsRejected(s: string)
    requires MinLength <= |s| <= MaxLength
    requires Text.IsSubstring("<SCRIPT", s)
    ensures ValidateReviewText(Str(s)) == (false, MsgDangerous)
  {
    var i := Text.SubstringOccurs("<SCRIPT", s);
    CapitalTagLowers(s, i);
    LowerTagDangerous(s, i);
    DangerousRejected(s);
  }

  /** Text of acceptable length that contains a dangerous pattern gets the
      fourth check's message. */
  lemma DangerousRejected(s: string)
    requires MinLength <= |s| <= MaxLength && Dangerous(s)
    ensures ValidateReviewText(Str(s)) == (false, MsgDangerous)
  {
  }

  /** `validate_batch`: the type and size checks, then each review in order;
      the first invalid review's message is returned with a prefix. */
  method ValidateBatch(reviews: BatchInput) returns (valid: bool, msg: string)
    ensures reviews.NotAList? ==> !valid && msg == MsgNotList
    ensures reviews.List? && |reviews.items| == 0 ==> !valid && msg == MsgEmptyList
    ensures reviews.List? && |reviews.items| > MaxBatch ==> !valid && msg == MsgTooMany
    ensures valid <==> reviews.List? && 1 <= |reviews.items| <= MaxBatch
                       && forall k :: 0 <= k < |reviews.items| ==> ValidateReviewText(reviews.items[k]).0
    ensures valid ==> msg == Valid
    ensures reviews.List? && 1 <= |reviews.items| <= MaxBatch && !valid ==>
              exists k :: 0 <= k < |reviews.items|
                && (forall j :: 0 <= j < k ==> ValidateReviewText(reviews.items[j]).0)
                && !ValidateReviewText(reviews.items[k]).0
                && msg == InvalidPrefix + ValidateReviewText(reviews.items[k]).1
  {
    if reviews.NotAList? {
      return false, MsgNotList;
    }
    var items := reviews.items;
    if |items| == 0 {
      return false, MsgEmptyList;
    }
    if |items| > MaxBatch {
      return false, MsgTooMany;
    }
    var i := 0;
    while i < |items|
      invariant 0 <= i <= |items|
      invariant forall j :: 0 <= j < i ==> ValidateReviewText(items[j]).0
    {
      var (ok, m) := ValidateReviewText(items[i]);
      if !ok {
        return false, InvalidPrefix + m;
      }
      i := i + 1;
    }
    return true, Valid;
  }

  // ---------------------------------------------------------------------
  // Rate limiting
  // ---------------------------------------------------------------------

  /** The closure state of one decorated endpoint: its limit and the request
      count per client address. Counts are never reset. */
  datatype Limiter = Limiter(maxRequests: int, counts: map<string, nat>)

  /** What the wrapper does with a request: call the endpoint, or answer 429. */
  datatype Response = Forwarded | RateLimitExceeded

  function CountOf(lim: Limiter, client: string): nat
  {
    if client in lim.counts then lim.counts[client] else 0
  }

  function NewLimiter(maxRequests: int): (lim: Limiter)
    ensures lim.maxRequests == maxRequests
    ensures forall c :: CountOf(lim, c) == 0
  {
    Limiter(maxRequests, map[])
  }

  /** One request through the wrapper. */
  function Request(lim: Limiter, client: string): (r: (Limiter, Response))
    ensures r.1 == Forwarded <==> CountOf(lim, client) < lim.maxRequests
    ensures r.1 == Forwarded ==> CountOf(r.0, client) == CountOf(lim, client) + 1
    ensures r.1 == RateLimitExceeded ==> r.0 == lim
    ensures r.0.maxRequests == lim.maxRequests
    ensures forall c :: c != client ==> CountOf(r.0, c) == CountOf(lim, c)
  {
    var current := CountOf(lim, client);
    if current >= lim.maxRequests then (lim, RateLimitExceeded)
    else (lim.(counts := lim.counts[client := current + 1]), Forwarded)
  }

  /** No recorded count exceeds the limit. */
  predicate WithinLimit(lim: Limiter)
  {
    forall c :: c in lim.counts ==> lim.counts[c] <= lim.maxRequests
  }

  lemma RequestKeepsWithinLimit(lim: Limiter, client: string)
    requires WithinLimit(lim)
    ensures WithinLimit(Request(lim, client).0)
  {
  }

  /** A run of requests from the given client addresses. */
  function Serve(lim: Limiter, clients: seq<string>): Limiter
    decreases |clients|
  {
    if |clients| == 0 then lim else Serve(Request(lim, clients[0]).0, clients[1..])
  }

  function Occurrences(clients: seq<string>, c: string): nat
  {
    if |clients| == 0 then 0 else (if clients[0] == c then 1 else 0) + Occurrences(clients[1..], c)
  }

  function Min(a: int, b: int): int { if a <= b then a else b }

  /** Over any run of requests a client's count never decreases and grows by
      one per request until it reaches the limit, where it stays. */
  lemma {:induction false} ServeCount(lim: Limiter, clients: seq<string>, c: string)
    ensures Serve(lim, clients).maxRequests == lim.maxRequests
    ensures CountOf(Serve(lim, clients), c) >= CountOf(lim, c)
    ensures CountOf(lim, c) >= lim.maxRequests ==> CountOf(Serve(lim, clients), c) == CountOf(lim, c)
    ensures CountOf(lim, c) < lim.maxRequests ==>
              CountOf(Serve(lim, clients), c) == Min(lim.maxRequests, CountOf(lim, c) + Occurrences(clients, c))
    decreases |clients|
  {
    if |clients| > 0 {
      ServeCount(Request(lim, clients[0]).0, clients[1..], c);
    }
  }

  /** A fresh limiter stays within its limit whatever requests arrive. */
  lemma {:induction false} ServeWithinLimit(lim: Limiter, clients: seq<string>)
    requires WithinLimit(lim)
    ensures WithinLimit(Serve(lim, clients))
    decreases |clients|
  {
    if |clients| > 0 {
      RequestKeepsWithinLimit(lim, clients[0]);
      ServeWithinLimit(Request(lim, clients[0]).0, clients[1..]);
    }
  }
}
